=== FILE: README.md ===
# Textbook RSA from scratch (rsa_puro.js), modelled in Dafny

The library implements RSA with no outside cryptographic code. It has:

- key generation (`generate_keypair`): two probable primes of half the requested bit length, with the public exponent 65537 and the private exponent found by the extended Euclidean algorithm;
- encryption and decryption of UTF-8 text through its hexadecimal big-endian number;
- unhashed signatures.

Underneath are a random-number generator `randomBigInt`, square-and-multiply `modPow`, `egcd` and `modInv`, and a Miller-Rabin test with a table of small primes.

The Dafny model follows the source file by file:

| module | file | models |
|---|---|---|
| `Arith` | `arith.dfy` | unbounded integers: powers, the Euclidean remainder laws the proofs use, bytes and their big-endian value |
| `Euclid` | `euclid.dfy` | `egcd`, JavaScript's truncating `%`, `modInv` |
| `Primes` | `primes.dfy` | primality and Euclid's lemma; the Chinese-remainder step for two primes; trial-division certificates for the table and for 65537 |
| `Fermat` | `fermat.dfy` | the binomial theorem and Fermat's little theorem; the square roots of 1 modulo a prime |
| `ModExp` | `modexp.dfy` | `modPow` as a loop, proved against `ModPowSpec` |
| `Random` | `random.dfy` | `randomBigInt` and `randBetween` over a finite sequence of random bytes |
| `Primality` | `primality.dfy` | `isProbablePrime` and `generatePrime` |
| `Codec` | `codec.dfy` | `textToBig`, `bigToText`, and the hex forms `toString(16)` and `BigInt('0x' + s)` |
| `Rsa` | `rsa.dfy` | `generate_keypair`, `encrypt`, `decrypt`, `sign`, `verify` |

`Math.random` becomes an explicit input: a finite `seq<Byte>` of draws. Every drawing method returns what is left of it. The source's unbounded retry loops are:

- the rejection loop of `randBetween`;
- `generatePrime`;
- the `do … while` of `generate_keypair`.

Here each of them consumes at least one byte per pass, so it terminates. When the draws run out, the result is `None`: "did not finish within these draws". Places where the source throws also give `None`:

- the empty text (`BigInt('0x')`);
- a malformed hex string;
- a modulus of 0;
- an odd `bits` in `generate_keypair`: `bits / 2` is fractional and `BigInt` rejects it.

In these details the code does something other than textbook RSA, and the model follows the code:

- `randomBigInt` always sets the top bit and the low bit, so its results are odd and, for `bits >= 1`, of exactly `bits` bits (for `bits == 0` the shift `1n << -1n` is `0n` and the result is 1). They are not uniform in `[0, 2^bits)`.
- `randBetween` therefore only returns `min + odd` with the top bit of the range's length set. It is not uniform in `[min, max]`.
- `modPow(x, 0, m)` returns its initial accumulator `1` unreduced (1 rather than 0 when `m == 1`).
- `generate_keypair` retries while `phi % e === 0n`, so it stops once `phi % e != 0`, rather than testing `gcd(e, phi) == 1`. The model proves the two coincide, in both directions, because 65537 is prime (`Rsa.ExitTestIsCoprimality`).

## Model

| member | source | states |
|---|---|---|
| Random.RandomBigInt | rsa_puro.js:2-15 | draws exactly `ceil(bits/8)` bytes and hands back the rest; the result is the candidate built from their big-endian value, odd, and for bits ≥ 1 in `[2^(bits-1), 2^bits)` |
| Random.FinishCandidate | rsa_puro.js:10-13 | masking when the bytes hold more than `bits` bits, then setting the top and the low bit, yields the candidate of the drawn value |
| Random.CandidateRange | rsa_puro.js:12-13 | every candidate is odd and, for `bits >= 1`, has exactly `bits` binary digits |
| Random.BinaryLength | rsa_puro.js:55 | `range.toString(2).length`: at least 1; 0 and 1 are one digit; a negative number gets one more digit for its '-', so it has at least 2 |
| Random.BinaryLengthBounds | rsa_puro.js:55 | `x.toString(2).length` of a positive x is its number of significant bits: `2^(len-1) <= x < 2^len` |
| Random.DrawAtMost | rsa_puro.js:54-56 | the do-while loop returns a candidate at most the range, odd, with the top bit of the range's length set; when it gives up, too few draws are left for one more candidate; for a range that is a power of two, 2 or more, it never returns one |
| Random.PowerOfTwoRange | rsa_puro.js:54-56 | a candidate of the bit length of a range `2^k`, `k >= 1`, is odd and at least `2^k`, so it always exceeds the range |
| Random.RandBetween | rsa_puro.js:51-58 | a result lies in `[min, max]`, its offset from min is odd and has the top bit of the range's length set; a negative or zero range (`max - min < 1`) never yields a result, and neither does a range that is a power of two, 2 or more; giving up means the draws left are too few for one more candidate |
| ModExp.ModPow | rsa_puro.js:17-26 | the square-and-multiply loop returns `b^e mod m`, and 1 for `e == 0`; below m whenever `e > 0` |
| ModExp.ModPowCompose | rsa_puro.js:104-105 | exponentiating by e1 and then e2 modulo m is exponentiating by `e1*e2` |
| ModExp.ModPowMultiplicative | rsa_puro.js:109 | modPow with a fixed exponent is multiplicative modulo m, so unhashed signatures of two numbers give the signature of their product |
| Euclid.Egcd | rsa_puro.js:28-32 | `egcd(a, b)` returns a common divisor g and coefficients with `a*x + b*y == g` |
| Euclid.EgcdIsGcd | rsa_puro.js:28-32 | that g is the greatest common divisor: every common divisor divides it; g is 0 only when both inputs are 0 |
| Euclid.JsRem | rsa_puro.js:36 | BigInt `%` truncates toward zero: the remainder lies strictly between `-m` and `m` and takes the sign of the dividend: non-negative for a non-negative dividend, non-positive for a negative one |
| Euclid.NormaliseResidue | rsa_puro.js:36 | `(a % m + m) % m` with truncating `%` is the Euclidean residue of a |
| Euclid.ModInv | rsa_puro.js:33-37 | fails exactly when m is 0 or egcd reports a gcd other than 1; otherwise returns r in `[0, m)` with `x*r == 1 (mod m)` |
| Euclid.ModInvComplete | rsa_puro.js:33-37 | modInv fails only when no inverse exists: any y with `x*y == 1 (mod m)` makes it succeed |
| Primes.PublicExponentIsPrime | rsa_puro.js:84 | the public exponent 65537 is prime |
| Primes.DividingIsNotCoprime | rsa_puro.js:90 | a p of 2 or more that divides x has gcd other than 1 with it |
| Primes.PrimeNotDividingIsCoprime | rsa_puro.js:90-92 | a prime that does not divide x has gcd 1 with it, so once `phi % e != 0` the `modInv(e, phi)` of generate_keypair cannot throw |
| Fermat.FermatLittle | rsa_puro.js:60-72 | `a^(p-1) == 1 (mod p)` for a prime p not dividing a, the fact every Miller-Rabin round and RSA decryption rest on |
| Fermat.SquareRootOfOne | rsa_puro.js:65-67 | modulo a prime the only square roots of 1 are 1 and `p - 1`, which is why a round that never reaches `n - 1` exposes a composite |
| Primality.SmallPrimesArePrime | rsa_puro.js:40 | every entry of the table smallPrimes is prime |
| Primality.PrefilterExact | rsa_puro.js:43-45 | the deterministic checks are exact: when they decide, they say true iff n is prime; when they do not, n is odd and at least 41 |
| Primality.CheckSmall | rsa_puro.js:43-45 | the two table loops and the even test compute the deterministic verdict |
| Primality.OddPartDecomposes | rsa_puro.js:48-49 | `m == d * 2^r` with d odd, and `r >= 1` for even m |
| Primality.Decompose | rsa_puro.js:48-49 | the halving loop on `n - 1` returns the odd part d and the exponent r with `n - 1 == d * 2^r` |
| Primality.MillerRabinRound | rsa_puro.js:62-69 | one round passes iff `a^d mod n` is 1 or `n - 1`, or one of the next `r - 1` squarings gives `n - 1` |
| Primality.SquaringsOfPower | rsa_puro.js:65-66 | squaring `a^e mod n` t times gives `a^(e * 2^t) mod n` |
| Primality.PrimePassesRound | rsa_puro.js:60-72 | a prime passes every round, whatever the witness in `[1, n)` |
| Primality.RejectedIsComposite | rsa_puro.js:42-73 | a "not prime" verdict, from the checks or from a failed round, is never wrong |
| Primality.RandomRounds | rsa_puro.js:60-72 | true only after k witnesses in `[2, n-2]` all passed; false only when the last witness failed after the others passed |
| Primality.IsProbablePrime | rsa_puro.js:42-73 | `k` defaults to 8, as generatePrime relies on; small and even inputs are decided without drawing; a true verdict is the table's or comes from k passing rounds; a false verdict is a failed check or a failed round |
| Primality.GeneratePrime | rsa_puro.js:75-80 | a result has exactly `bits` bits, is odd and was accepted by isProbablePrime with 8 rounds; `bits == 0` never yields a prime; for `bits >= 1` it gives up only when too few draws are left for one more candidate; a first candidate the small-prime table accepts is returned after one draw |
| Primality.TestCandidate | rsa_puro.js:77-78 | one pass draws a `bits`-bit odd candidate and tests it; an undecided test means fewer draws are left than one candidate needs; a table prime is accepted without further draws |
| Primality.RangeFits | rsa_puro.js:55 | the witness range `n - 4` of a `bits`-bit n needs no more bytes per draw than n itself |
| Codec.ToHex | rsa_puro.js:104 | `toString(16)` is non-empty lower-case hex with no leading zero except for 0 itself |
| Codec.ParseHex | rsa_puro.js:105 | `BigInt('0x' + s)` succeeds iff s is non-empty and all hex digits |
| Codec.ParseToHex | rsa_puro.js:104-105 | parsing what `toString(16)` wrote gives the number back |
| Codec.BytesToHex | rsa_puro.js:96 | `toString('hex')` writes two lower-case hex digits per byte |
| Codec.HexToBytes | rsa_puro.js:100 | `Buffer.from(hex, 'hex')` never yields more than one byte per pair of characters |
| Codec.HexToBytesPair | rsa_puro.js:100 | byte i of the result decodes the pair of hex digits at positions 2i and 2i + 1 |
| Codec.HexToBytesStops | rsa_puro.js:100 | decoding ends before the last pair only at the first pair that is not two hex digits |
| Rsa.KeyModulusBits | rsa_puro.js:87-92 | primes of `bits/2` bits each give a modulus with `2^(bits-2) <= n < 2^bits` |
| Codec.HexValueOfBytes | rsa_puro.js:96 | the hex form of bytes reads as their big-endian value |
| Codec.TextToBig | rsa_puro.js:96 | textToBig of an empty text throws (`BigInt('0x')`), giving None; any other text is read as its big-endian value |
| Codec.HexToBytesOfBytesToHex | rsa_puro.js:96-100 | `Buffer.from(hex, 'hex')` inverts `toString('hex')` |
| Codec.BytesToHexOfHexToBytes | rsa_puro.js:96-100 | and, on even-length lower-case hex, the other way round |
| Codec.EvenHex | rsa_puro.js:98-99 | the padded hex of a number has even length, at least 2, in lower case |
| Codec.BigToText | rsa_puro.js:97-101 | bigToText returns at least one byte, and those bytes written back in hex are exactly the padded hex of the number: no pair is dropped |
| Codec.EvenHexOfBytes | rsa_puro.js:96-99 | for a text without a leading zero byte, the padded hex of its number is its own hex form |
| Codec.BigToTextOfValue | rsa_puro.js:96-101 | bigToText inverts textToBig on texts without a leading zero byte |
| Codec.TextToBigOfText | rsa_puro.js:96-101 | textToBig inverts bigToText on every number |
| Codec.LeadingZeroByteLost | rsa_puro.js:96-101 | a leading zero byte does not survive: `[0, 65]` comes back as `[65]` |
| Rsa.KeyFromPrimes | rsa_puro.js:89-93 | the key built from p and q has `n = p*q`, `e = 65537`, `d < phi` and `e*d == 1 (mod phi)` |
| Rsa.DrawPrime | rsa_puro.js:87 | one generatePrime(half) call gives a probable prime of exactly `half` bits, or gives up only when too few draws are left for one candidate; with `half == 2` it takes 3 from one draw |
| Rsa.DrawPrimes | rsa_puro.js:87-88 | one pass draws two odd probable primes of exactly `bits/2` bits, at least 3 each, and consumes draws; it gives up only when too few draws are left; with `bits/2 == 2` and two draws it finds `p = q = 3` |
| Rsa.TwoBitCandidates | rsa_puro.js:2-15 | every 2-bit candidate is 3, which the small-prime table accepts |
| Rsa.TwoBitPrimes | rsa_puro.js:87-90 | 3 is the only 2-bit probable prime, and `p = q = 3` passes the exit test (`phi % e == 4`) |
| Rsa.ExitTestIsCoprimality | rsa_puro.js:90 | `phi % 65537 != 0` holds exactly when `gcd(65537, phi) == 1` |
| Rsa.ModulusBits | rsa_puro.js:87-91 | two factors of exactly `h` bits each give a product of `2h - 1` or `2h` bits |
| Rsa.GenerateKeyPair | rsa_puro.js:83-94 | `bits` defaults to 512; an odd bits gives no key; a key comes from two probable primes of `bits/2` bits with e not dividing phi; the modulus `n = p*q` has `bits - 1` or `bits` bits (`2^(bits-2) <= n < 2^bits`); with `bits == 4` both primes are 3, and two draws are enough to get that key; it gives no key only for an odd or zero `bits` or when too few draws are left for one more candidate |
| Rsa.GenerateKeyPairDistinct | rsa_puro.js:83-94 | the same loop that also retries while `p == q`; its keys come from two distinct probable primes, with a modulus of `bits - 1` or `bits` bits; `bits == 4` never gives a key, since 3 is the only 2-bit prime; otherwise it gives no key only for an odd or zero `bits` or when too few draws are left |
| Rsa.Encrypt | rsa_puro.js:104 | defined iff the text is non-empty and n is positive; the hex it returns reads as `m^e mod n` for the text's number m |
| Rsa.Decrypt | rsa_puro.js:105 | defined iff the ciphertext is well-formed hex and n is positive; the text it returns has the number `c^d mod n` |
| Rsa.Sign | rsa_puro.js:109 | defined iff the text is non-empty and n is positive; the hex reads as `(m mod n)^d mod n` |
| Rsa.Verify | rsa_puro.js:110-111 | defined iff the text is non-empty, n positive and the signature well-formed hex; true iff `m mod n == s^e mod n` |
| Rsa.RsaIdentity | rsa_puro.js:89-92 | for distinct primes p and q with `e*d == 1 (mod phi)`, `m^(e*d) == m (mod p*q)` for every `m < p*q` |
| Rsa.RsaRoundTrip | rsa_puro.js:104-105 | exponentiating by e and then d modulo `p*q` returns every residue |
| Rsa.DecryptEncrypt | rsa_puro.js:103-105 | with a key from two distinct primes, decrypt undoes encrypt for every text below n without a leading zero byte |
| Rsa.VerifySign | rsa_puro.js:107-111 | with a key from two distinct primes, verify accepts every signature sign produced |
| Rsa.DistinctPrimeKeyDecrypts | rsa_puro.js:89-105 | the key built from two distinct primes with e not dividing phi decrypts what it encrypts |
| Rsa.FourBitKey | rsa_puro.js:89-93 | from `p = q = 3` generate_keypair builds `{e: 65537, n: 9}` and `{d: 1, n: 9}` |
| Rsa.EqualPrimeKeyFails | rsa_puro.js:104-105 | with that key, `encrypt([2])` is `"5"` and decrypting it gives `[5]`, not `[2]` |

## Left out

- `Math.random`: replaced by a finite sequence of bytes passed in. No probability or distribution is modelled, including the `4^-k` error bound of Miller-Rabin. A "prime" verdict is recorded with the witnesses that passed, not as primality.
- Non-termination: a loop the source may run forever ends in `None` when the draws run out. Examples are `randBetween` with a range below 1 or a range that is a power of two, 2 or more (isProbablePrime never reaches either: its range `n - 4` is odd and at least 37), and `generatePrime(0)` or `generatePrime(1)`, whose candidate is always 1.
- Exceptions: every `throw` becomes `None`. The kind of error and its message are not kept.
- UTF-8: `Buffer.from(txt, 'utf8')` and `toString('utf8')` are not modelled. Texts are their byte sequences, and invalid UTF-8 on the way back is not replaced by U+FFFD.
- `BigInt('0x' + s)` ignores trailing whitespace of `s`; the model does not, and rejects such strings as malformed. Leading whitespace lands after `0x`, where the source throws too.
- `Buffer.from(hex, 'hex')` is modelled only on what `bigToText` passes it: it reads pairs from the front and stops at the first invalid one.
- ModExp.ModPow: requires `m > 0`, where the source throws on `base %= 0n`. Every caller in the model maps a zero modulus to `None` before exponentiating.
- Negative numbers: keys, ciphertexts and signatures are non-negative here (`nat`). The source would accept a negative `n` passed in by hand.
- The HTTP relay, the console loop and the alternative implementation on a platform crypto library (the other JavaScript files) are not part of this model.

## Findings

| source | as written | input that shows it | evidently intended | confidence | as-written member | corrected member |
|---|---|---|---|---|---|---|
| rsa_puro.js:86-90 | the loop only retries while `phi % e === 0n`; nothing stops `p == q`; for `n = p^2` the exponents must be inverse modulo `p(p-1)`, not modulo the `(p-1)^2` the code uses, so decryption can fail | `generate_keypair(4)`: `generatePrime(2)` returns 3 from its first draw, so any two draws give `p = q = 3` (`Rsa.GenerateKeyPair`), `n = 9`, `d = 1`, and `decrypt(encrypt([2]))` is `[5]` | retry also while `p == q`, so decrypt undoes encrypt for every text below n | high (proved, not executed) | Rsa.EqualPrimeKeyFails | Rsa.GenerateKeyPairDistinct |

=== FILE: arith.dfy ===
/** Unbounded-integer arithmetic that the RSA library relies on: powers, powers of two
    and the laws of Euclidean remainder that the proofs use. JavaScript's BigInt is
    unbounded, so `nat` and `int` stand for it without any wrap-around. */
module Arith {

  /** b to the power e. */
  function Pow(b: nat, e: nat): nat
  {
    if e == 0 then 1 else b * Pow(b, e - 1)
  }

  /** 2 to the power k; the value of `1n << BigInt(k)`. */
  function Pow2(k: nat): (r: nat)
    ensures r >= 1
  {
    if k == 0 then 1 else 2 * Pow2(k - 1)
  }

  lemma {:induction false} Pow2Add(a: nat, b: nat)
    ensures Pow2(a + b) == Pow2(a) * Pow2(b)
  {
    if a > 0 {
      Pow2Add(a - 1, b);
      assert Pow2(a + b) == 2 * Pow2(a - 1 + b);
    }
  }

  lemma {:induction false} Pow2Monotone(a: nat, b: nat)
    requires a <= b
    ensures Pow2(a) <= Pow2(b)
  {
    if a < b {
      Pow2Monotone(a, b - 1);
    }
  }

  lemma {:induction false} MulAtLeast(m: int, k: int)
    requires m > 0 && k >= 1
    ensures m * k >= m
  {
    if k > 1 {
      MulAtLeast(m, k - 1);
      assert m * k == m * (k - 1) + m;
    }
  }

  /** Uniqueness of Euclidean quotient and remainder. */
  lemma DivModUnique(a: int, m: int, q: int, r: int)
    requires m > 0 && 0 <= r < m && a == m * q + r
    ensures a / m == q && a % m == r
  {
    var q0, r0 := a / m, a % m;
    assert a == m * q0 + r0 && 0 <= r0 < m;
    if q0 > q {
      assert m * q0 == m * q + m * (q0 - q);
      MulAtLeast(m, q0 - q);
      assert false;
    } else if q0 < q {
      assert m * q == m * q0 + m * (q - q0);
      MulAtLeast(m, q - q0);
      assert false;
    }
  }

  lemma ModAddMultiple(a: int, k: int, m: int)
    requires m > 0
    ensures (a + m * k) % m == a % m
  {
    var q, r := a / m, a % m;
    assert a + m * k == m * (q + k) + r;
    DivModUnique(a + m * k, m, q + k, r);
  }

  lemma ModOfMultiple(k: int, m: int)
    requires m > 0
    ensures (m * k) % m == 0 && (k * m) % m == 0
  {
    ModAddMultiple(0, k, m);
  }

  lemma AddMod(a: int, b: int, m: int)
    requires m > 0
    ensures (a + b) % m == ((a % m) + (b % m)) % m
  {
    var qa, qb := a / m, b / m;
    assert a + b == (a % m) + (b % m) + m * (qa + qb);
    ModAddMultiple((a % m) + (b % m), qa + qb, m);
  }

  lemma SubMod(a: int, b: int, m: int)
    requires m > 0
    ensures (a - b) % m == ((a % m) - (b % m)) % m
  {
    var qa, qb := a / m, b / m;
    assert a - b == (a % m) - (b % m) + m * (qa - qb);
    ModAddMultiple((a % m) - (b % m), qa - qb, m);
  }

  lemma MulModLeft(a: int, b: int, m: int)
    requires m > 0
    ensures (a * b) % m == ((a % m) * b) % m
  {
    var q := a / m;
    assert a == m * q + a % m;
    assert a * b == (a % m) * b + m * (q * b);
    ModAddMultiple((a % m) * b, q * b, m);
  }

  lemma MulMod(a: int, b: int, m: int)
    requires m > 0
    ensures (a * b) % m == ((a % m) * (b % m)) % m
  {
    MulModLeft(a, b, m);
    MulModLeft(b, a % m, m);
    assert (a % m) * b == b * (a % m);
    assert (b % m) * (a % m) == (a % m) * (b % m);
  }

  lemma ModSmall(a: int, m: int)
    requires 0 <= a < m
    ensures a % m == a
  {
    DivModUnique(a, m, 0, a);
  }

  lemma ModMod(a: int, m: int)
    requires m > 0
    ensures (a % m) % m == a % m
  {
    ModSmall(a % m, m);
  }

  /** A common factor of a product makes the product divisible. */
  lemma MulDivisible(a: int, b: int, m: int)
    requires m > 0 && a % m == 0
    ensures (a * b) % m == 0
  {
    MulModLeft(a, b, m);
  }

  lemma {:induction false} PowAdd(b: nat, e1: nat, e2: nat)
    ensures Pow(b, e1 + e2) == Pow(b, e1) * Pow(b, e2)
  {
    if e1 > 0 {
      var x, y := Pow(b, e1 - 1), Pow(b, e2);
      PowAdd(b, e1 - 1, e2);
      assert Pow(b, e1 + e2) == b * Pow(b, e1 - 1 + e2);
      MulAssoc(b, x, y);
    }
  }

  lemma MulAssoc(x: int, y: int, z: int)
    ensures x * (y * z) == (x * y) * z
  {
  }

  lemma MulSucc(a: int, k: int)
    ensures a * k == a * (k - 1) + a
  {
  }

  lemma {:induction false} PowMul(b: nat, e1: nat, e2: nat)
    ensures Pow(b, e1 * e2) == Pow(Pow(b, e1), e2)
  {
    if e2 > 0 {
      var c := Pow(b, e1);
      var lower: nat := e1 * (e2 - 1);
      PowMul(b, e1, e2 - 1);
      MulSucc(e1, e2);
      PowAdd(b, lower, e1);
      assert Pow(b, e1 * e2) == Pow(b, lower) * c;
      assert Pow(c, e2) == c * Pow(c, e2 - 1);
    }
  }

  lemma {:induction false} PowOfOne(e: nat)
    ensures Pow(1, e) == 1
  {
    if e > 0 { PowOfOne(e - 1); }
  }

  /** Reducing the base first does not change a power modulo m. */
  lemma {:induction false} PowMod(b: nat, e: nat, m: int)
    requires m > 0
    ensures Pow(b % m, e) % m == Pow(b, e) % m
  {
    if e > 0 {
      PowMod(b, e - 1, m);
      calc {
        Pow(b % m, e) % m;
        ((b % m) * Pow(b % m, e - 1)) % m;
        { MulMod(b % m, Pow(b % m, e - 1), m); ModMod(b, m); }
        ((b % m) * (Pow(b, e - 1) % m)) % m;
        { MulMod(b, Pow(b, e - 1), m); }
        Pow(b, e) % m;
      }
    }
  }

  /** A power of a multiple of m is a multiple of m. */
  lemma PowDivisible(b: nat, e: nat, m: int)
    requires m > 0 && b % m == 0 && e > 0
    ensures Pow(b, e) % m == 0
  {
    MulDivisible(b, Pow(b, e - 1), m);
  }

  /** A byte, as drawn by `Math.floor(Math.random() * 256)` or held in a Buffer. */
  type Byte = x: int | 0 <= x < 256

  /** The big-endian unsigned value of a byte string. */
  function BytesValue(s: seq<Byte>): nat
  {
    if s == [] then 0 else 256 * BytesValue(s[..|s| - 1]) + s[|s| - 1]
  }

  lemma {:induction false} BytesValueBound(s: seq<Byte>)
    ensures BytesValue(s) < Pow2(8 * |s|)
  {
    if s != [] {
      var init := s[..|s| - 1];
      BytesValueBound(init);
      assert Pow2(8) == 256;
      Pow2Add(8 * |init|, 8);
      assert 8 * |s| == 8 * |init| + 8;
      assert BytesValue(s) <= 256 * (Pow2(8 * |init|) - 1) + 255;
    }
  }
}

=== FILE: codec.dfy ===
/** The conversions between text and numbers of rsa_puro.js: `textToBig`
    (rsa_puro.js:96), `bigToText` (rsa_puro.js:97-101), and the hexadecimal
    forms that `encrypt`, `decrypt`, `sign` and `verify` use for numbers on
    the wire (`toString(16)` and `BigInt('0x' + s)`).

    A text is modelled by its UTF-8 bytes: `Buffer.from(txt, 'utf8')` and
    `toString('utf8')` are left out, so a text is a `seq<Byte>`. */
module Codec {
  import opened Arith
  import opened Wrappers

  /** The digit JavaScript writes for d < 16: `0`-`9`, then `a`-`f`. */
  function HexDigit(d: nat): char
    requires d < 16
  {
    if d < 10 then ('0' as int + d) as char else ('a' as int + d - 10) as char
  }

  /** A digit `BigInt('0x' + s)` and `Buffer.from(s, 'hex')` accept. */
  predicate IsHexChar(c: char)
  {
    '0' <= c <= '9' || 'a' <= c <= 'f' || 'A' <= c <= 'F'
  }

  /** A digit JavaScript writes. */
  predicate IsLowerHex(c: char)
  {
    '0' <= c <= '9' || 'a' <= c <= 'f'
  }

  predicate AllHex(s: string)
  {
    forall i :: 0 <= i < |s| ==> IsHexChar(s[i])
  }

  predicate AllLowerHex(s: string)
  {
    forall i :: 0 <= i < |s| ==> IsLowerHex(s[i])
  }

  function HexCharValue(c: char): (v: nat)
    requires IsHexChar(c)
    ensures v < 16
  {
    if '0' <= c <= '9' then c as int - '0' as int
    else if 'a' <= c <= 'f' then c as int - 'a' as int + 10
    else c as int - 'A' as int + 10
  }

  /** Writing a digit and reading it back are inverse. */
  lemma DigitRoundTrip(d: nat, c: char)
    requires d < 16 && IsLowerHex(c)
    ensures IsLowerHex(HexDigit(d)) && HexCharValue(HexDigit(d)) == d
    ensures HexDigit(HexCharValue(c)) == c
  {
  }

  /** `v.toString(16)` for v >= 0: lower-case digits, no leading zero, "0"
      for zero. */
  function ToHex(v: nat): (s: string)
    ensures |s| >= 1 && AllLowerHex(s)
    ensures s[0] == '0' <==> v == 0
  {
    if v < 16 then [HexDigit(v)] else ToHex(v / 16) + [HexDigit(v % 16)]
  }

  /** The value of a string of hex digits, most significant first. */
  function HexValue(s: string): nat
    requires AllHex(s)
  {
    if s == [] then 0 else 16 * HexValue(s[..|s| - 1]) + HexCharValue(s[|s| - 1])
  }

  /** `BigInt('0x' + s)`: None where it throws a SyntaxError, that is for an
      empty s or one with a character that is not a hex digit. */
  function ParseHex(s: string): (r: Option<nat>)
    ensures r.Some? <==> |s| >= 1 && AllHex(s)
  {
    if |s| >= 1 && AllHex(s) then Some(HexValue(s)) else None
  }

  /** `Buffer.from(b).toString('hex')`: two lower-case digits per byte. */
  function BytesToHex(b: seq<Byte>): (s: string)
    ensures |s| == 2 * |b| && AllLowerHex(s)
  {
    if b == [] then []
    else BytesToHex(b[..|b| - 1]) + [HexDigit(b[|b| - 1] / 16), HexDigit(b[|b| - 1] % 16)]
  }

  /** `Buffer.from(s, 'hex')`: decode pairs of digits from the front and stop
      at the first pair that is not two hex digits; a final odd digit is
      dropped. */
  function HexToBytes(s: string): (b: seq<Byte>)
    ensures |b| <= |s| / 2
  {
    if |s| < 2 || !IsHexChar(s[0]) || !IsHexChar(s[1]) then []
    else [16 * HexCharValue(s[0]) + HexCharValue(s[1])] + HexToBytes(s[2..])
  }

  /** Byte i of what Buffer.from(s, 'hex') returns decodes the pair of hex
      digits at 2i and 2i + 1. */
  lemma {:induction false} HexToBytesPair(s: string, i: nat)
    requires i < |HexToBytes(s)|
    ensures IsHexChar(s[2 * i]) && IsHexChar(s[2 * i + 1])
    ensures HexToBytes(s)[i] == 16 * HexCharValue(s[2 * i]) + HexCharValue(s[2 * i + 1])
  {
    if i > 0 {
      HexToBytesPair(s[2..], i - 1);
      PairShift(s, i - 1);
    }
  }

  /** Decoding ends before the last pair only at a pair that is not two hex
      digits. */
  lemma {:induction false} HexToBytesStops(s: string)
    ensures var n := |HexToBytes(s)|;
      n < |s| / 2 ==> !IsHexChar(s[2 * n]) || !IsHexChar(s[2 * n + 1])
  {
    if |s| >= 2 && IsHexChar(s[0]) && IsHexChar(s[1]) {
      HexToBytesStops(s[2..]);
      var n := |HexToBytes(s[2..])|;
      if n < |s[2..]| / 2 {
        PairShift(s, n);
      }
    }
  }

  /** The pair j of s[2..] is the pair j + 1 of s. */
  lemma PairShift(s: string, j: nat)
    requires 2 * j + 3 < |s|
    ensures s[2 * (j + 1)] == s[2..][2 * j] && s[2 * (j + 1) + 1] == s[2..][2 * j + 1]
  {
  }

  /** textToBig: `BigInt('0x' + hex)` of the text's hex form. An empty text
      gives `BigInt('0x')`, which throws: None. Any other text is read as its
      big-endian value. */
  function TextToBig(txt: seq<Byte>): (r: Option<nat>)
    ensures txt == [] ==> r.None?
    ensures txt != [] ==> r == Some(BytesValue(txt))
  {
    HexValueOfBytes(txt);
    ParseHex(BytesToHex(txt))
  }

  /** The hex form bigToText decodes: `v.toString(16)` with a '0' put in
      front when its length is odd. */
  function EvenHex(v: nat): (s: string)
    ensures |s| % 2 == 0 && |s| >= 2 && AllLowerHex(s)
  {
    var hex := ToHex(v);
    if |hex| % 2 == 1 then ['0'] + hex else hex
  }

  /** bigToText for v >= 0: every pair of the padded hex form is decoded, so
      the bytes written back in hex are exactly that form. */
  function BigToText(v: nat): (t: seq<Byte>)
    ensures |t| >= 1 && BytesToHex(t) == EvenHex(v)
  {
    BytesToHexOfHexToBytes(EvenHex(v));
    HexToBytes(EvenHex(v))
  }

  /** A text whose number form gives it back: no leading zero byte, except
      the one-byte text [0]. */
  predicate Canonical(b: seq<Byte>)
  {
    |b| >= 1 && (b[0] != 0 || |b| == 1)
  }

  // ---------------------------------------------------------------------
  // Hex strings and their values

  lemma {:induction false} HexValueOfToHex(v: nat)
    ensures HexValue(ToHex(v)) == v
  {
    if v >= 16 {
      HexValueOfToHex(v / 16);
      var s := ToHex(v);
      assert s[..|s| - 1] == ToHex(v / 16);
    }
  }

  /** `BigInt('0x' + v.toString(16))` is v. */
  lemma ParseToHex(v: nat)
    ensures ParseHex(ToHex(v)) == Some(v)
  {
    HexValueOfToHex(v);
  }

  /** A leading zero digit does not change the value. */
  lemma {:induction false} HexLeadingZero(t: string)
    requires AllHex(t)
    ensures AllHex(['0'] + t) && HexValue(['0'] + t) == HexValue(t)
  {
    if t != [] {
      var init := t[..|t| - 1];
      HexLeadingZero(init);
      assert (['0'] + t)[..|t|] == ['0'] + init;
    }
  }

  /** A hex string starting with a non-zero digit has a positive value. */
  lemma {:induction false} HexValuePositive(s: string)
    requires |s| >= 1 && AllHex(s) && s[0] != '0'
    ensures HexValue(s) >= 1
  {
    if |s| >= 2 {
      HexValuePositive(s[..|s| - 1]);
    }
  }

  /** toString(16) writes back a canonical lower-case hex string. */
  lemma {:induction false} ToHexOfHexValue(s: string)
    requires |s| >= 1 && AllLowerHex(s) && (s[0] != '0' || |s| == 1)
    ensures ToHex(HexValue(s)) == s
  {
    var c := s[|s| - 1];
    DigitRoundTrip(HexCharValue(c), c);
    if |s| >= 2 {
      var init := s[..|s| - 1];
      HexValuePositive(init);
      ToHexOfHexValue(init);
      var v := HexValue(s);
      DivModUnique(v, 16, HexValue(init), HexCharValue(c));
      assert ToHex(v) == ToHex(HexValue(init)) + [HexDigit(HexCharValue(c))];
    }
  }

  // ---------------------------------------------------------------------
  // Bytes and their hex form

  /** The hex form of a byte string read as a number is its big-endian
      value. */
  lemma {:induction false} HexValueOfBytes(b: seq<Byte>)
    ensures HexValue(BytesToHex(b)) == BytesValue(b)
  {
    if b != [] {
      var init := b[..|b| - 1];
      var z := b[|b| - 1];
      HexValueOfBytes(init);
      var h := BytesToHex(init);
      var s := BytesToHex(b);
      DigitRoundTrip(z / 16, '0');
      DigitRoundTrip(z % 16, '0');
      assert s[..|s| - 1] == h + [HexDigit(z / 16)];
      assert (h + [HexDigit(z / 16)])[..|h|] == h;
      assert HexValue(s) == 16 * (16 * HexValue(h) + z / 16) + z % 16;
    }
  }

  /** The hex form of a byte string starts with the two digits of its first
      byte. */
  lemma {:induction false} BytesToHexFront(b: seq<Byte>)
    requires |b| >= 1
    ensures BytesToHex(b) == [HexDigit(b[0] / 16), HexDigit(b[0] % 16)] + BytesToHex(b[1..])
  {
    if |b| >= 2 {
      var init := b[..|b| - 1];
      BytesToHexFront(init);
      assert init[1..] == b[1..][..|b| - 2];
      assert b[1..][|b| - 2] == b[|b| - 1];
    }
  }

  /** Decoding the hex form of a byte string gives the byte string back. */
  lemma {:induction false} HexToBytesOfBytesToHex(b: seq<Byte>)
    ensures HexToBytes(BytesToHex(b)) == b
    decreases |b|
  {
    if b != [] {
      BytesToHexFront(b);
      DigitRoundTrip(b[0] / 16, '0');
      DigitRoundTrip(b[0] % 16, '0');
      var s := BytesToHex(b);
      assert s[2..] == BytesToHex(b[1..]);
      HexToBytesOfBytesToHex(b[1..]);
    }
  }

  /** Encoding the bytes decoded from an even-length lower-case hex string
      gives the string back. */
  lemma {:induction false} BytesToHexOfHexToBytes(s: string)
    requires |s| % 2 == 0 && AllLowerHex(s)
    ensures BytesToHex(HexToBytes(s)) == s
    decreases |s|
  {
    if |s| >= 2 {
      var z: Byte := 16 * HexCharValue(s[0]) + HexCharValue(s[1]);
      var rest := HexToBytes(s[2..]);
      assert HexToBytes(s) == [z] + rest;
      BytesToHexFront([z] + rest);
      assert ([z] + rest)[1..] == rest;
      DivModUnique(z, 16, HexCharValue(s[0]), HexCharValue(s[1]));
      DigitRoundTrip(0, s[0]);
      DigitRoundTrip(0, s[1]);
      BytesToHexOfHexToBytes(s[2..]);
      assert s == [s[0], s[1]] + s[2..];
    }
  }

  // ---------------------------------------------------------------------
  // Round trips between texts and numbers

  /** For a canonical text, the padded hex form of its value is its own hex
      form. */
  lemma EvenHexOfBytes(b: seq<Byte>)
    requires Canonical(b)
    ensures EvenHex(BytesValue(b)) == BytesToHex(b)
  {
    var h := BytesToHex(b);
    var v := BytesValue(b);
    HexValueOfBytes(b);
    if b[0] >= 16 {
      WideFirstByte(b);
      PaddingKeeps(v, h);
    } else if b[0] >= 1 {
      NarrowFirstByte(b);
      PaddingRestores(v, h[1..]);
    } else {
      assert b == [0];
      assert v == 0 && h == ['0', '0'];
    }
  }

  lemma PaddingKeeps(v: nat, h: string)
    requires ToHex(v) == h && |h| % 2 == 0
    ensures EvenHex(v) == h
  {
  }

  lemma PaddingRestores(v: nat, t: string)
    requires ToHex(v) == t && |t| % 2 == 1
    ensures EvenHex(v) == ['0'] + t
  {
  }

  /** A first byte of two significant digits: the hex form is already
      canonical and even. */
  lemma WideFirstByte(b: seq<Byte>)
    requires |b| >= 1 && b[0] >= 16
    ensures ToHex(HexValue(BytesToHex(b))) == BytesToHex(b)
  {
    var h := BytesToHex(b);
    BytesToHexFront(b);
    assert h[0] == HexDigit(b[0] / 16) && b[0] / 16 >= 1;
    ToHexOfHexValue(h);
  }

  /** A first byte of one significant digit: toString(16) drops the leading
      '0' of the hex form, and the padding puts it back. */
  lemma NarrowFirstByte(b: seq<Byte>)
    requires |b| >= 1 && 1 <= b[0] < 16
    ensures var h := BytesToHex(b);
      h == ['0'] + h[1..] && ToHex(HexValue(BytesToHex(b))) == h[1..]
  {
    var h := BytesToHex(b);
    BytesToHexFront(b);
    var t := h[1..];
    assert h == ['0'] + t;
    assert t[0] == HexDigit(b[0] % 16) && b[0] % 16 >= 1;
    HexLeadingZero(t);
    ToHexOfHexValue(t);
  }

  /** bigToText undoes textToBig on canonical texts. */
  lemma BigToTextOfValue(b: seq<Byte>)
    requires Canonical(b)
    ensures BigToText(BytesValue(b)) == b
  {
    EvenHexOfBytes(b);
    HexToBytesOfBytesToHex(b);
  }

  /** textToBig undoes bigToText on every non-negative number. */
  lemma TextToBigOfText(v: nat)
    ensures TextToBig(BigToText(v)) == Some(v)
  {
    var s := EvenHex(v);
    BytesToHexOfHexToBytes(s);
    HexValueOfToHex(v);
    if |ToHex(v)| % 2 == 1 {
      HexLeadingZero(ToHex(v));
    }
  }

  /** A text starting with a zero byte does not survive: its number form
      drops the zero. */
  lemma LeadingZeroByteLost()
    ensures BytesValue([0, 65]) == 65 && BigToText(65) == [65]
  {
    assert [0, 65][..1] == [0];
    var s := BytesToHex([65]);
    assert s == ['4', '1'];
    assert BigToText(65) == HexToBytes(['4', '1']);
  }
}

=== FILE: euclid.dfy ===
/** The extended Euclidean algorithm `egcd` and the modular inverse `modInv` of
    rsa_puro.js. Both are pure functions of unbounded non-negative integers; the
    "inverse does not exist" exception becomes `None`. */
module Euclid {
  import opened Arith
  import opened Wrappers

  /** d divides n; by convention 0 divides only 0. */
  predicate Divides(d: nat, n: int)
  {
    if d == 0 then n == 0 else n % d == 0
  }

  /** g is a greatest common divisor of a and b: a common divisor that every
      common divisor divides. */
  ghost predicate IsGcd(g: nat, a: nat, b: nat)
  {
    Divides(g, a) && Divides(g, b) &&
    forall c: nat :: Divides(c, a) && Divides(c, b) ==> Divides(c, g)
  }

  /** Integer combinations of multiples of d are multiples of d. */
  lemma CombinationDivisible(d: int, u: int, v: int, s: int, t: int)
    requires d > 0 && u % d == 0 && v % d == 0
    ensures (u * s + v * t) % d == 0
  {
    var qu, qv := u / d, v / d;
    assert u == d * qu && v == d * qv;
    assert u * s + v * t == d * (qu * s + qv * t);
    ModOfMultiple(qu * s + qv * t, d);
  }

  lemma DividesCombination(d: nat, u: int, v: int, s: int, t: int)
    requires Divides(d, u) && Divides(d, v)
    ensures Divides(d, u * s + v * t)
  {
    if d > 0 { CombinationDivisible(d, u, v, s, t); }
  }

  /** The extended Euclidean algorithm (egcd): returns (g, x, y) with g a common
      divisor of a and b and the Bezout identity a*x + b*y == g. For
      non-negative operands JavaScript's truncating `/` and `%` agree with
      Dafny's Euclidean ones. */
  function Egcd(a: nat, b: nat): (r: (nat, int, int))
    ensures Divides(r.0, a) && Divides(r.0, b)
    ensures a * r.1 + b * r.2 == r.0
    decreases b
  {
    if b == 0 then (a, 1, 0)
    else
      var (g, x1, y1) := Egcd(b, a % b);
      assert a == b * (a / b) + a % b;
      DividesCombination(g, b, a % b, a / b, 1);
      assert a * y1 + b * (x1 - (a / b) * y1) == b * x1 + (a % b) * y1;
      (g, y1, x1 - (a / b) * y1)
  }

  /** The first component of egcd is the greatest common divisor, and it is
      zero only when both operands are. */
  lemma EgcdIsGcd(a: nat, b: nat)
    ensures IsGcd(Egcd(a, b).0, a, b)
    ensures Egcd(a, b).0 == 0 <==> a == 0 && b == 0
  {
    var (g, x, y) := Egcd(a, b);
    forall c: nat | Divides(c, a) && Divides(c, b)
      ensures Divides(c, g)
    {
      DividesCombination(c, a, b, x, y);
    }
  }

  /** JavaScript's BigInt remainder, which truncates toward zero: the result
      takes the sign of the dividend. */
  function JsRem(a: int, m: int): (r: int)
    requires m > 0
    ensures -m < r < m
    ensures a >= 0 ==> r >= 0
    ensures a < 0 ==> r <= 0
  {
    if a >= 0 then a % m else -((-a) % m)
  }

  /** The normalisation `(a % m + m) % m` of modInv yields the Euclidean
      residue of a. */
  lemma NormaliseResidue(a: int, m: int)
    requires m > 0
    ensures (JsRem(a, m) + m) % m == a % m
  {
    if a >= 0 {
      ModAddMultiple(a % m, 1, m);
      ModMod(a, m);
    } else {
      var r := (-a) % m;
      var q := (-a) / m;
      assert -a == m * q + r;
      assert -r + m == a + m * (q + 1);
      ModAddMultiple(a, q + 1, m);
    }
  }

  /** The modular inverse (modInv): None when egcd reports a gcd other than 1,
      otherwise the inverse of x normalised into [0, m). With m == 0 the
      source throws as well: egcd(x, 0) gives g == x, and for x == 1 the
      normalisation divides by zero. */
  function ModInv(x: nat, m: nat): (r: Option<nat>)
    ensures r.Some? ==> m > 0 && r.value < m && (x * r.value) % m == 1 % m
    ensures r.None? <==> m == 0 || Egcd(x, m).0 != 1
  {
    var (g, a, b) := Egcd(x, m);
    if g != 1 || m == 0 then None
    else
      NormalisedInverse(x, m, a, b);
      Some((JsRem(a, m) + m) % m)
  }

  /** From x*a + m*b == 1, the normalised a is the inverse of x modulo m. */
  lemma NormalisedInverse(x: nat, m: nat, a: int, b: int)
    requires m > 0 && x * a + m * b == 1
    ensures 0 <= (JsRem(a, m) + m) % m < m
    ensures (x * ((JsRem(a, m) + m) % m)) % m == 1 % m
  {
    var r := (JsRem(a, m) + m) % m;
    NormaliseResidue(a, m);
    MulMod(x, a, m);
    MulMod(x, r, m);
    ModMod(a, m);
    assert x * a == 1 + m * (-b);
    ModAddMultiple(1, -b, m);
  }

  lemma OneDivisorIsOne(d: nat)
    requires d > 0 && 1 % d == 0
    ensures d == 1
  {
    if d > 1 { ModSmall(1, d); }
  }

  /** modInv fails only when no inverse exists: any y with x*y = 1 (mod m)
      forces the gcd to 1. */
  lemma ModInvComplete(x: nat, m: nat, y: int)
    requires m > 0 && (x * y) % m == 1 % m
    ensures ModInv(x, m).Some?
  {
    var (g, a, b) := Egcd(x, m);
    assert g > 0;
    var q := (x * y) / m;
    assert x * y == m * q + 1 % m;
    if m == 1 {
      assert m % g == 0;
      OneDivisorIsOne(g);
    } else {
      ModSmall(1, m);
      assert x * y + m * (-q) == 1;
      CombinationDivisible(g, x, m, y, -q);
      OneDivisorIsOne(g);
    }
  }

  /** A positive divisor of a positive number is no larger than it. */
  lemma DivisorAtMost(d: nat, n: nat)
    requires d > 0 && n > 0 && n % d == 0
    ensures d <= n
  {
    if d > n { ModSmall(n, d); }
  }
}

=== FILE: fermat.dfy ===
/** Fermat's little theorem and the square roots of 1 modulo a prime: the two
    facts that make Miller-Rabin accept every prime and make RSA decryption
    undo encryption. Fermat's theorem is proved through the binomial theorem:
    a prime p divides every inner binomial coefficient C(p, k). */
module Fermat {
  import opened Arith
  import opened Primes

  /** The binomial coefficient C(n, k), by Pascal's rule. */
  function Binom(n: nat, k: nat): nat
  {
    if k == 0 then 1 else if n == 0 then 0 else Binom(n - 1, k - 1) + Binom(n - 1, k)
  }

  lemma {:induction false} BinomAbove(n: nat, k: nat)
    requires k > n
    ensures Binom(n, k) == 0
  {
    if n > 0 {
      BinomAbove(n - 1, k - 1);
      BinomAbove(n - 1, k);
    }
  }

  lemma {:induction false} BinomDiagonal(n: nat)
    ensures Binom(n, n) == 1
  {
    if n > 0 {
      BinomDiagonal(n - 1);
      BinomAbove(n - 1, n);
    }
  }

  lemma {:induction false} BinomOne(n: nat)
    ensures Binom(n, 1) == n
  {
    if n > 0 { BinomOne(n - 1); }
  }

  /** The absorption identity k * C(n, k) == n * C(n - 1, k - 1). */
  lemma {:induction false} BinomAbsorb(n: nat, k: nat)
    requires n >= 1 && k >= 1
    ensures k * Binom(n, k) == n * Binom(n - 1, k - 1)
    decreases n
  {
    if k == 1 {
      BinomOne(n);
    } else if n == 1 {
      BinomAbove(0, k);
      BinomAbove(0, k - 1);
    } else {
      BinomAbsorb(n - 1, k);
      BinomAbsorb(n - 1, k - 1);
      AbsorbAlgebra(n, k, Binom(n - 1, k - 1), Binom(n - 1, k), Binom(n - 2, k - 2), Binom(n - 2, k - 1));
    }
  }

  lemma AbsorbAlgebra(n: int, k: int, a: int, b: int, c: int, d: int)
    requires a == c + d && k * b == (n - 1) * d && (k - 1) * a == (n - 1) * c
    ensures k * (a + b) == n * a
  {
    calc {
      k * (a + b);
      a + (k - 1) * a + k * b;
      a + (n - 1) * c + (n - 1) * d;
      a + (n - 1) * (c + d);
      n * a;
    }
  }

  /** A prime divides its inner binomial coefficients. */
  lemma PrimeDividesBinom(p: nat, k: nat)
    requires IsPrime(p) && 0 < k < p
    ensures Binom(p, k) % p == 0
  {
    BinomAbsorb(p, k);
    ModOfMultiple(Binom(p - 1, k - 1), p);
    assert (k * Binom(p, k)) % p == 0;
    EuclidLemma(p, k, Binom(p, k));
    ModSmall(k, p);
  }

  /** The first m terms of the binomial expansion of (x + 1)^n. */
  function BinomSum(n: nat, x: nat, m: nat): nat
  {
    if m == 0 then 0 else BinomSum(n, x, m - 1) + Binom(n, m - 1) * Pow(x, m - 1)
  }

  lemma {:induction false} BinomSumStep(n: nat, x: nat, m: nat)
    ensures BinomSum(n + 1, x, m + 1) == x * BinomSum(n, x, m) + BinomSum(n, x, m + 1)
  {
    if m > 0 {
      BinomSumStep(n, x, m - 1);
      StepAlgebra(x, BinomSum(n + 1, x, m), BinomSum(n, x, m - 1), BinomSum(n, x, m),
        Binom(n, m - 1), Binom(n, m), Pow(x, m - 1));
    }
  }

  lemma StepAlgebra(x: int, s1: int, s0: int, s0': int, b1: int, b2: int, q: int)
    requires s1 == x * s0 + s0' && s0' == s0 + b1 * q
    ensures s1 + (b1 + b2) * (x * q) == x * s0' + (s0' + b2 * (x * q))
  {
    calc {
      s1 + (b1 + b2) * (x * q);
      x * s0 + s0' + b1 * (x * q) + b2 * (x * q);
      x * (s0 + b1 * q) + s0' + b2 * (x * q);
    }
  }

  /** The binomial theorem for (x + 1)^n. */
  lemma {:induction false} BinomialTheorem(n: nat, x: nat)
    ensures BinomSum(n, x, n + 1) == Pow(x + 1, n)
  {
    if n > 0 {
      var t := BinomSum(n - 1, x, n);
      assert t == Pow(x + 1, n - 1) by { BinomialTheorem(n - 1, x); }
      assert BinomSum(n - 1, x, n + 1) == t by {
        BinomAbove(n - 1, n);
      }
      assert BinomSum(n, x, n + 1) == x * t + t by {
        BinomSumStep(n - 1, x, n);
      }
      assert Pow(x + 1, n) == (x + 1) * Pow(x + 1, n - 1);
      Distribute(x, t);
    }
  }

  lemma Distribute(x: int, t: int)
    ensures (x + 1) * t == x * t + t
  {
  }

  /** Modulo p, the inner terms of the expansion of (x + 1)^p vanish. */
  lemma {:induction false} InnerTermsVanish(p: nat, x: nat, m: nat)
    requires IsPrime(p) && 1 <= m <= p
    ensures BinomSum(p, x, m) % p == 1
  {
    if m == 1 {
      ModSmall(1, p);
    } else {
      InnerTermsVanish(p, x, m - 1);
      PrimeDividesBinom(p, m - 1);
      AddMultipleOf(BinomSum(p, x, m - 1), Binom(p, m - 1), Pow(x, m - 1), p);
    }
  }

  lemma AddMultipleOf(s: int, c: int, w: int, p: int)
    requires p > 0 && c % p == 0
    ensures (s + c * w) % p == s % p
  {
    var t := c / p;
    assert c == p * t;
    MulAssoc(p, t, w);
    ModAddMultiple(s, t * w, p);
  }

  /** (x + 1)^p == x^p + 1 modulo a prime p. */
  lemma FreshmansDream(p: nat, x: nat)
    requires IsPrime(p)
    ensures Pow(x + 1, p) % p == (Pow(x, p) + 1) % p
  {
    BinomialTheorem(p, x);
    BinomDiagonal(p);
    InnerTermsVanish(p, x, p);
    assert Pow(x + 1, p) == BinomSum(p, x, p) + Pow(x, p);
    AddMod(BinomSum(p, x, p), Pow(x, p), p);
    AddMod(1, Pow(x, p), p);
    ModSmall(1, p);
  }

  /** a^p == a modulo a prime p, for every a >= 0. */
  lemma {:induction false} FermatPower(p: nat, a: nat)
    requires IsPrime(p)
    ensures Pow(a, p) % p == a % p
  {
    if a == 0 {
      PowDivisible(0, p, p);
    } else {
      FermatPower(p, a - 1);
      FreshmansDream(p, a - 1);
      AddMod(Pow(a - 1, p), 1, p);
      AddMod(a - 1, 1, p);
    }
  }

  /** Fermat's little theorem: a^(p-1) == 1 modulo a prime p not dividing a. */
  lemma FermatLittle(p: nat, a: nat)
    requires IsPrime(p) && a % p != 0
    ensures Pow(a, p - 1) % p == 1
  {
    FermatPower(p, a);
    assert Pow(a, p) == a * Pow(a, p - 1);
    assert a * (Pow(a, p - 1) - 1) == Pow(a, p) - a;
    SubMod(Pow(a, p), a, p);
    ModSmall(0, p);
    EuclidLemma(p, a, Pow(a, p - 1) - 1);
    var q := (Pow(a, p - 1) - 1) / p;
    assert Pow(a, p - 1) == 1 + p * q;
    ModAddMultiple(1, q, p);
    ModSmall(1, p);
  }

  /** The only square roots of 1 modulo a prime are 1 and p - 1. */
  lemma SquareRootOfOne(p: nat, x: nat)
    requires IsPrime(p) && x < p && (x * x) % p == 1
    ensures x == 1 || x == p - 1
  {
    if x == 0 {
      ModSmall(0, p);
    } else {
      assert (x - 1) * (x + 1) == x * x - 1;
      SubMod(x * x, 1, p);
      ModSmall(1, p);
      ModSmall(0, p);
      EuclidLemma(p, x - 1, x + 1);
      if (x - 1) % p == 0 {
        ModSmall(x - 1, p);
      } else {
        if x + 1 < p { ModSmall(x + 1, p); }
      }
    }
  }
}

=== FILE: modexp.dfy ===
/** Square-and-multiply modular exponentiation (modPow, rsa_puro.js:17-26). */
module ModExp {
  import opened Arith

  /** The value modPow returns: b^e reduced modulo m, except that a zero
      exponent returns the initial accumulator 1 without reducing it (so the
      result is 1, not 0, when m == 1). */
  function ModPowSpec(b: nat, e: nat, m: nat): nat
    requires m > 0
  {
    if e == 0 then 1 else Pow(b, e) % m
  }

  /** Replacing a factor by its residue does not change a product modulo m. */
  lemma MulPowMod(r: nat, base: nat, k: nat, m: nat)
    requires m > 0
    ensures (r * Pow(base % m, k)) % m == (r * Pow(base, k)) % m
  {
    MulMod(r, Pow(base % m, k), m);
    PowMod(base, k, m);
    MulMod(r, Pow(base, k), m);
  }

  /** One step of the loop keeps res * base^exp unchanged modulo m. */
  lemma SquareStep(res: nat, base: nat, exp: nat, m: nat)
    requires m > 0 && exp > 0
    ensures exp % 2 == 1 ==>
      (((res * base) % m) * Pow((base * base) % m, exp / 2)) % m == (res * Pow(base, exp)) % m
    ensures exp % 2 == 0 ==>
      (res * Pow((base * base) % m, exp / 2)) % m == (res * Pow(base, exp)) % m
  {
    var k := exp / 2;
    assert Pow(base, 1) == base;
    assert Pow(base, 2) == base * base;
    PowMul(base, 2, k);
    MulPowMod(res, base * base, k, m);
    if exp % 2 == 1 {
      assert exp == 2 * k + 1;
      PowAdd(base, 2 * k, 1);
      assert Pow(base, exp) == Pow(base * base, k) * base;
      MulPowMod(res * base, base * base, k, m);
      MulModLeft(res * base, Pow((base * base) % m, k), m);
      assert (res * base) * Pow(base * base, k) == res * Pow(base, exp);
    } else {
      assert exp == 2 * k;
    }
  }

  /** modPow: scan the exponent's bits from the least significant end, squaring
      the base each step and multiplying it into the result when the bit is 1.
      `exp & 1n` is `exp % 2` and `exp >>= 1n` is `exp / 2` for exp >= 0. */
  method ModPow(b: nat, e: nat, m: nat) returns (res: nat)
    requires m > 0
    ensures res == ModPowSpec(b, e, m)
    ensures e > 0 ==> res < m
  {
    res := 1;
    var base: nat := b % m;
    var exp := e;
    PowMod(b, e, m);
    while exp > 0
      invariant (res * Pow(base, exp)) % m == Pow(b, e) % m
      invariant e == 0 ==> res == 1
      invariant exp > 0 || e == 0 || res < m
    {
      ghost var before := (res * Pow(base, exp)) % m;
      SquareStep(res, base, exp, m);
      if exp % 2 == 1 {
        res := (res * base) % m;
      } else {
        assert exp / 2 > 0;
      }
      exp := exp / 2;
      base := (base * base) % m;
      assert (res * Pow(base, exp)) % m == before;
    }
    if e > 0 {
      ModSmall(res, m);
    }
  }

  /** Exponentiating twice multiplies the exponents. */
  lemma ModPowCompose(b: nat, e1: nat, e2: nat, m: nat)
    requires m > 0 && e1 > 0 && e2 > 0
    ensures ModPowSpec(ModPowSpec(b, e1, m), e2, m) == Pow(b, e1 * e2) % m
  {
    var c := Pow(b, e1);
    assert ModPowSpec(b, e1, m) == c % m;
    assert ModPowSpec(c % m, e2, m) == Pow(c % m, e2) % m;
    PowMod(c, e2, m);
    PowMul(b, e1, e2);
  }

  lemma {:induction false} PowOfProduct(a: nat, b: nat, e: nat)
    ensures Pow(a * b, e) == Pow(a, e) * Pow(b, e)
  {
    if e > 0 {
      PowOfProduct(a, b, e - 1);
      var x, y := Pow(a, e - 1), Pow(b, e - 1);
      assert Pow(a * b, e) == (a * b) * (x * y);
      Rearrange(a, b, x, y);
    }
  }

  lemma Rearrange(a: int, b: int, x: int, y: int)
    ensures (a * b) * (x * y) == (a * x) * (b * y)
  {
  }

  /** modPow with a fixed positive exponent is multiplicative: the product of
      two results is the result for the product of the bases. */
  lemma ModPowMultiplicative(a: nat, b: nat, e: nat, m: nat)
    requires m > 0 && e > 0
    ensures (ModPowSpec(a, e, m) * ModPowSpec(b, e, m)) % m == ModPowSpec((a * b) % m, e, m)
  {
    MulMod(Pow(a, e), Pow(b, e), m);
    PowOfProduct(a, b, e);
    PowMod(a * b, e, m);
  }
}

=== FILE: primality.dfy ===
/** The Miller-Rabin probable-prime test `isProbablePrime` (rsa_puro.js:40-73)
    and the prime generator `generatePrime` (rsa_puro.js:75-80).

    The test first decides small and even inputs by table look-up and trial
    division, then runs k rounds with random witnesses. A verdict "composite" is
    always right; a prime is never called composite. A verdict "prime" after
    the random rounds is only probable, and the model records the witnesses it
    was reached with. */
module Primality {
  import opened Arith
  import opened Wrappers
  import opened Euclid
  import opened Primes
  import opened Fermat
  import opened ModExp
  import opened Random

  /** The table smallPrimes. */
  const SmallPrimes: seq<nat> := [3, 5, 7, 11, 13, 17, 19, 23, 29, 31, 37]

  /** The verdict of the deterministic checks that precede the random rounds,
      or None when they leave n undecided. */
  function Prefilter(n: int): Option<bool>
  {
    if n < 2 || n % 2 == 0 then Some(n == 2)
    else if n in SmallPrimes then Some(true)
    else if exists i :: 0 <= i < |SmallPrimes| && n % SmallPrimes[i] == 0 then Some(false)
    else None
  }

  lemma SmallPrimesArePrime()
    ensures forall p :: p in SmallPrimes ==> IsPrime(p)
  {
    PrimeByTrialDivision(3, 1);
    PrimeByTrialDivision(5, 2);
    PrimeByTrialDivision(7, 2);
    PrimeByTrialDivision(11, 3);
    PrimeByTrialDivision(13, 3);
    PrimeByTrialDivision(17, 4);
    PrimeByTrialDivision(19, 4);
    PrimeByTrialDivision(23, 4);
    PrimeByTrialDivision(29, 5);
    PrimeByTrialDivision(31, 5);
    PrimeByTrialDivision(37, 6);
  }

  /** The deterministic checks are exact, and what they leave undecided is an
      odd number above the table. */
  lemma PrefilterExact(n: int)
    ensures Prefilter(n).Some? ==> (Prefilter(n).value <==> IsPrime(n))
    ensures Prefilter(n).None? ==> n >= 41 && n % 2 == 1
  {
    if n < 2 {
    } else if n % 2 == 0 {
      if n != 2 {
        DivisorShowsComposite(n, 2);
      }
    } else if n in SmallPrimes {
      SmallPrimesArePrime();
    } else if exists i :: 0 <= i < |SmallPrimes| && n % SmallPrimes[i] == 0 {
      var i :| 0 <= i < |SmallPrimes| && n % SmallPrimes[i] == 0;
      DivisorShowsComposite(n, SmallPrimes[i]);
    } else {
      assert n % SmallPrimes[0] != 0 && n % SmallPrimes[1] != 0;
      AboveTable(n);
    }
  }

  lemma DivisorShowsComposite(n: int, p: nat)
    requires n >= 2 && p >= 2 && n != p && n % p == 0
    ensures !IsPrime(n)
  {
    DivisorAtMost(p, n);
  }

  /** An odd number from 3 to 40 outside the table is a multiple of 3 or 5. */
  lemma AboveTable(n: int)
    requires n >= 3 && n % 2 == 1 && n % 3 != 0 && n % 5 != 0 && n !in SmallPrimes
    ensures n >= 41
  {
  }

  /** The odd part d of m == d * 2^r. */
  function OddPart(m: nat): nat
    requires m > 0
    decreases m
  {
    if m % 2 == 0 then OddPart(m / 2) else m
  }

  /** The exponent r of m == d * 2^r with d odd. */
  function TwoExponent(m: nat): nat
    requires m > 0
    decreases m
  {
    if m % 2 == 0 then 1 + TwoExponent(m / 2) else 0
  }

  lemma {:induction false} OddPartDecomposes(m: nat)
    requires m > 0
    ensures OddPart(m) % 2 == 1 && m == OddPart(m) * Pow2(TwoExponent(m))
    ensures m % 2 == 0 ==> TwoExponent(m) >= 1
    decreases m
  {
    if m % 2 == 0 {
      var h := m / 2;
      OddPartDecomposes(h);
      var d, r := OddPart(h), TwoExponent(h);
      assert OddPart(m) == d && TwoExponent(m) == r + 1;
      var p := Pow2(r);
      assert Pow2(r + 1) == 2 * p;
      assert m == 2 * h && h == d * p;
      MulAssoc(2, d, p);
      MulAssoc(d, 2, p);
    }
  }

  /** The loop `while ((d & 1n) === 0n) { d >>= 1n; r++; }` on d = n - 1: it
      strips the factors 2 of m. For m == 0 the source loops forever, so the
      caller passes a positive m. */
  method Decompose(m: nat) returns (d: nat, r: nat)
    requires m > 0
    ensures d == OddPart(m) && r == TwoExponent(m)
    ensures d % 2 == 1 && m == d * Pow2(r)
  {
    d, r := m, 0;
    while d % 2 == 0
      invariant d > 0
      invariant OddPart(d) == OddPart(m) && TwoExponent(m) == r + TwoExponent(d)
      decreases d
    {
      d := d / 2;
      r := r + 1;
    }
    OddPartDecomposes(m);
  }

  /** x squared t times modulo n. */
  function Squarings(x: nat, n: nat, t: nat): nat
    requires n > 0
    decreases t
  {
    if t == 0 then x else Squarings((x * x) % n, n, t - 1)
  }

  /** One of the next t squarings of x modulo n gives n - 1. */
  predicate ReachesMinusOne(x: nat, n: nat, t: int)
    requires n > 0
    decreases t
  {
    t > 0 && ((x * x) % n == n - 1 || ReachesMinusOne((x * x) % n, n, t - 1))
  }

  /** Witness a does not show n composite, for n - 1 == d * 2^r: a^d is 1 or
      n - 1, or one of the next r - 1 squarings is n - 1. */
  predicate PassesRound(n: nat, d: nat, r: nat, a: nat)
    requires n > 0
  {
    var x := ModPowSpec(a, d, n);
    x == 1 || x == n - 1 || ReachesMinusOne(x, n, r - 1)
  }

  /** a is a witness the source could have drawn for n, and n passes the round
      with it. */
  predicate WitnessPasses(n: int, a: int)
  {
    n >= 3 && 2 <= a <= n - 2 && PassesRound(n, OddPart(n - 1), TwoExponent(n - 1), a)
  }

  predicate AllPass(n: int, ws: seq<nat>)
  {
    forall i :: 0 <= i < |ws| ==> WitnessPasses(n, ws[i])
  }

  /** isProbablePrime(n, k) returned true with these witnesses. */
  predicate Accepted(n: int, ws: seq<nat>, k: nat)
  {
    Prefilter(n) == Some(true) ||
    (Prefilter(n).None? && |ws| == k && AllPass(n, ws))
  }

  /** The last witness exposes n as composite after all the others passed. */
  predicate ExposedByLast(n: int, ws: seq<nat>)
  {
    |ws| >= 1 && AllPass(n, ws[..|ws| - 1]) &&
    n >= 3 && 2 <= ws[|ws| - 1] <= n - 2 && !WitnessPasses(n, ws[|ws| - 1])
  }

  /** isProbablePrime returned false with these witnesses. */
  predicate Rejected(n: int, ws: seq<nat>)
  {
    Prefilter(n) == Some(false) || (Prefilter(n).None? && ExposedByLast(n, ws))
  }

  /** One round: compute a^d mod n, accept on 1 or n - 1, otherwise square up
      to r - 1 times looking for n - 1. */
  method MillerRabinRound(n: nat, d: nat, r: nat, a: nat) returns (pass: bool)
    requires n > 0
    ensures pass == PassesRound(n, d, r, a)
  {
    var x: nat := ModPow(a, d, n);
    if x == 1 || x == n - 1 {
      return true;
    }
    ghost var x0 := x;
    var j := 1;
    while j < r
      invariant 1 <= j && (r >= 1 ==> j <= r)
      invariant ReachesMinusOne(x0, n, r - 1) == ReachesMinusOne(x, n, r - j)
    {
      x := (x * x) % n;
      if x == n - 1 {
        return true;
      }
      j := j + 1;
    }
    return false;
  }

  lemma SquareOfPowerMod(a: nat, e: nat, n: nat)
    requires n > 0
    ensures ((Pow(a, e) % n) * (Pow(a, e) % n)) % n == Pow(a, 2 * e) % n
  {
    MulMod(Pow(a, e), Pow(a, e), n);
    PowAdd(a, e, e);
    assert e + e == 2 * e;
  }

  lemma DoubleExponent(e: nat, t: nat)
    requires t > 0
    ensures e * Pow2(t) == (2 * e) * Pow2(t - 1)
  {
    var p := Pow2(t - 1);
    assert Pow2(t) == 2 * p;
    assert e * (2 * p) == (2 * e) * p;
  }

  /** Squaring a power of a doubles its exponent. */
  lemma {:induction false} SquaringsOfPower(a: nat, e: nat, n: nat, t: nat)
    requires n > 0
    ensures Squarings(Pow(a, e) % n, n, t) == Pow(a, e * Pow2(t)) % n
    decreases t
  {
    if t > 0 {
      var x := Pow(a, e) % n;
      SquareOfPowerMod(a, e, n);
      assert Squarings(x, n, t) == Squarings(Pow(a, 2 * e) % n, n, t - 1);
      SquaringsOfPower(a, 2 * e, n, t - 1);
      DoubleExponent(e, t);
    }
  }

  /** Modulo a prime, a number other than 1 and n - 1 that never squares to
      n - 1 never squares to 1 either. */
  lemma {:induction false} NoRootOfOne(n: nat, x: nat, t: nat)
    requires IsPrime(n) && x < n && x != 1 && x != n - 1
    requires !ReachesMinusOne(x, n, t)
    ensures Squarings(x, n, t + 1) != 1
    decreases t
  {
    var y := (x * x) % n;
    if y == 1 {
      SquareRootOfOne(n, x);
      assert false;
    }
    if t > 0 {
      NoRootOfOne(n, y, t - 1);
    }
  }

  /** A prime passes every round, whatever the witness. */
  lemma PrimePassesRound(n: nat, d: nat, r: nat, a: nat)
    requires IsPrime(n) && n - 1 == d * Pow2(r) && r >= 1 && 0 < a < n
    ensures PassesRound(n, d, r, a)
  {
    if !PassesRound(n, d, r, a) {
      assert d > 0;
      var x := Pow(a, d) % n;
      NoRootOfOne(n, x, r - 1);
      SquaringsOfPower(a, d, n, r);
      ModSmall(a, n);
      FermatLittle(n, a);
      assert false;
    }
  }

  /** A "composite" verdict is never wrong. */
  lemma RejectedIsComposite(n: int, ws: seq<nat>)
    requires Rejected(n, ws)
    ensures !IsPrime(n)
  {
    PrefilterExact(n);
    if Prefilter(n).None? && IsPrime(n) {
      var a := ws[|ws| - 1];
      OddPartDecomposes(n - 1);
      PrimePassesRound(n, OddPart(n - 1), TwoExponent(n - 1), a);
      assert false;
    }
  }

  /** The deterministic checks of isProbablePrime: evenness, the look-up in
      the table, then trial division by the table. */
  method CheckSmall(n: int) returns (verdict: Option<bool>)
    ensures verdict == Prefilter(n)
  {
    if n < 2 || n % 2 == 0 {
      return Some(n == 2);
    }
    var i := 0;
    while i < |SmallPrimes|
      invariant 0 <= i <= |SmallPrimes|
      invariant forall j :: 0 <= j < i ==> n != SmallPrimes[j]
    {
      if n == SmallPrimes[i] {
        return Some(true);
      }
      i := i + 1;
    }
    i := 0;
    while i < |SmallPrimes|
      invariant 0 <= i <= |SmallPrimes|
      invariant forall j :: 0 <= j < i ==> n % SmallPrimes[j] != 0
    {
      if n % SmallPrimes[i] == 0 {
        return Some(false);
      }
      i := i + 1;
    }
    return None;
  }

  /** The k random rounds of isProbablePrime on an n the checks left open,
      with n - 1 == d * 2^s. It stops at the first witness that exposes n;
      None means the draws ran out. */
  method RandomRounds(n: nat, d: nat, s: nat, k: nat, rand: seq<Byte>)
    returns (r: Option<bool>, witnesses: seq<nat>, rest: seq<Byte>)
    requires n >= 41 && d == OddPart(n - 1) && s == TwoExponent(n - 1)
    ensures Suffix(rest, rand)
    ensures r == Some(true) ==> |witnesses| == k && AllPass(n, witnesses)
    ensures r == Some(false) ==> ExposedByLast(n, witnesses)
    ensures r.None? ==> |witnesses| < k && AllPass(n, witnesses)
    ensures r.None? ==> |rest| < ByteCount(BinaryLength(n - 4))
  {
    witnesses := [];
    rest := rand;
    var round := 0;
    while round < k
      invariant Suffix(rest, rand)
      invariant |witnesses| == round <= k
      invariant AllPass(n, witnesses)
    {
      var a, rest' := RandBetween(2, n - 2, rest);
      SuffixTrans(rest', rest, rand);
      rest := rest';
      if a.None? {
        return None, witnesses, rest;
      }
      var w: nat := a.value;
      var pass := MillerRabinRound(n, d, s, w);
      if !pass {
        assert (witnesses + [w])[..|witnesses|] == witnesses;
        return Some(false), witnesses + [w], rest;
      }
      witnesses := witnesses + [w];
      round := round + 1;
    }
    return Some(true), witnesses, rest;
  }

  /** isProbablePrime(n, k = 8). None means the draws ran out inside randBetween. */
  method IsProbablePrime(n: int, k: nat := 8, rand: seq<Byte>)
    returns (r: Option<bool>, witnesses: seq<nat>, rest: seq<Byte>)
    ensures Suffix(rest, rand)
    ensures Prefilter(n).Some? ==> r == Prefilter(n) && witnesses == [] && rest == rand
    ensures r == Some(true) ==> Accepted(n, witnesses, k)
    ensures r == Some(false) ==> Rejected(n, witnesses)
    ensures r.None? ==> Prefilter(n).None? && |witnesses| < k && AllPass(n, witnesses)
    ensures r.None? ==> |rest| < ByteCount(BinaryLength(n - 4))
  {
    var verdict := CheckSmall(n);
    if verdict.Some? {
      return verdict, [], rand;
    }
    PrefilterExact(n);
    var d, s := Decompose(n - 1);
    r, witnesses, rest := RandomRounds(n, d, s, k, rand);
  }

  /** The first candidate randomBigInt(bits) builds from rand. */
  function FirstCandidate(bits: nat, rand: seq<Byte>): nat
    requires |rand| >= ByteCount(bits)
  {
    Candidate(bits, BytesValue(rand[..ByteCount(bits)]))
  }

  /** The first candidate drawn from rand is settled as prime by the table
      checks alone. */
  predicate FirstIsSmallPrime(bits: nat, rand: seq<Byte>)
  {
    |rand| >= ByteCount(bits) && Prefilter(FirstCandidate(bits, rand)) == Some(true)
  }

  /** generatePrime: draw bits-bit candidates until one is accepted. For
      bits == 0 the candidate is always 1, which is never accepted: the source
      loops forever without drawing, and the model gives None. */
  method GeneratePrime(bits: nat, rand: seq<Byte>)
    returns (p: Option<nat>, witnesses: seq<nat>, rest: seq<Byte>)
    ensures Suffix(rest, rand)
    ensures p.Some? ==> bits >= 1 && Pow2(bits - 1) <= p.value < Pow2(bits) && p.value % 2 == 1
    ensures p.Some? ==> Accepted(p.value, witnesses, 8)
    ensures p.Some? ==> |rest| <= |rand| - ByteCount(bits)
    ensures bits == 0 ==> p.None?
    ensures p.None? ==> bits == 0 || |rest| < ByteCount(bits)
    ensures FirstIsSmallPrime(bits, rand) ==>
      p == Some(FirstCandidate(bits, rand)) && rest == rand[ByteCount(bits)..]
  {
    rest := rand;
    witnesses := [];
    if bits == 0 {
      return None, witnesses, rest;
    }
    while true
      invariant Suffix(rest, rand)
      invariant FirstIsSmallPrime(bits, rand) ==> rest == rand
      decreases |rest|
    {
      if |rest| < ByteCount(bits) {
        return None, [], rest;
      }
      var candidate, verdict, ws, after := TestCandidate(bits, rest);
      SuffixTrans(after, rest, rand);
      rest := after;
      if verdict == Some(true) {
        return Some(candidate), ws, rest;
      }
      if verdict.None? {
        return None, [], rest;
      }
    }
  }

  /** One pass of generatePrime: draw a bits-bit candidate and test it. */
  method TestCandidate(bits: nat, rand: seq<Byte>)
    returns (candidate: nat, verdict: Option<bool>, witnesses: seq<nat>, rest: seq<Byte>)
    requires bits >= 1 && |rand| >= ByteCount(bits)
    ensures Suffix(rest, rand) && |rest| <= |rand| - ByteCount(bits)
    ensures candidate == FirstCandidate(bits, rand)
    ensures Pow2(bits - 1) <= candidate < Pow2(bits) && candidate % 2 == 1
    ensures verdict == Some(true) ==> Accepted(candidate, witnesses, 8)
    ensures verdict.None? ==> |rest| < ByteCount(bits)
    ensures Prefilter(candidate) == Some(true) ==> verdict == Some(true) && rest == rand[ByteCount(bits)..]
  {
    var afterDraw;
    candidate, afterDraw := RandomBigInt(bits, rand);
    verdict, witnesses, rest := IsProbablePrime(candidate, rand := afterDraw);
    assert Suffix(afterDraw, rand);
    SuffixTrans(rest, afterDraw, rand);
    if verdict.None? {
      PrefilterExact(candidate);
      RangeFits(candidate, bits);
    }
  }

  /** The witness range of isProbablePrime(n) for a bits-bit n is drawn with
      at most as many bytes as n itself. */
  lemma RangeFits(n: nat, bits: nat)
    requires 5 <= n < Pow2(bits)
    ensures ByteCount(BinaryLength(n - 4)) <= ByteCount(bits)
  {
    var len := BinaryLength(n - 4);
    BinaryLengthBounds(n - 4);
    if len > bits {
      Pow2Monotone(bits, len - 1);
    }
  }
}

=== FILE: primes.dfy ===
/** Primality as a mathematical predicate and the facts about primes that the
    library's correctness rests on: Euclid's lemma (proved from the model's own
    egcd), distinct primes dividing a number together, and trial-division
    certificates for the fixed primes the library uses (its table 3..37 and the
    public exponent 65537). */
module Primes {
  import opened Arith
  import opened Euclid

  ghost predicate IsPrime(n: int)
  {
    n >= 2 && forall k :: 2 <= k < n ==> n % k != 0
  }

  /** Euclid's lemma: a prime dividing a product divides one of the factors. */
  lemma EuclidLemma(p: nat, a: int, b: int)
    requires IsPrime(p) && (a * b) % p == 0
    ensures a % p == 0 || b % p == 0
  {
    if a % p != 0 {
      var c := a % p;
      ResidueCoprime(p, c);
      var (g, x, y) := Egcd(c, p);
      MulModLeft(a, b, p);
      BezoutCancel(p, c, b, x, y);
    }
  }

  /** A non-zero residue modulo a prime has gcd 1 with it. */
  lemma ResidueCoprime(p: nat, c: nat)
    requires IsPrime(p) && 0 < c < p
    ensures Egcd(c, p).0 == 1
  {
    var g := Egcd(c, p).0;
    assert Divides(g, p) && Divides(g, c);
    assert g > 0;
    DivisorAtMost(g, c);
  }

  /** If c * x + p * y == 1 and p divides c * b, then p divides b. */
  lemma BezoutCancel(p: nat, c: int, b: int, x: int, y: int)
    requires p > 0 && c * x + p * y == 1 && (c * b) % p == 0
    ensures b % p == 0
  {
    assert b == (c * b) * x + p * (b * y) by {
      assert b * (c * x + p * y) == b;
      assert b * (c * x) == (c * b) * x;
      assert b * (p * y) == p * (b * y);
    }
    MulDivisible(c * b, x, p);
    ModAddMultiple((c * b) * x, b * y, p);
  }

  /** Two distinct primes that both divide x - y make x and y congruent modulo
      their product. */
  lemma CongruentModProduct(p: nat, q: nat, x: int, y: int)
    requires IsPrime(p) && IsPrime(q) && p != q
    requires x % p == y % p && x % q == y % q
    ensures x % (p * q) == y % (p * q)
  {
    var s := (x - y) / p;
    assert x - y == p * s by {
      SubMod(x, y, p);
      ModSmall(0, p);
    }
    assert (p * s) % q == 0 by {
      SubMod(x, y, q);
      ModSmall(0, q);
    }
    assert p % q != 0 by {
      if p % q == 0 {
        DivisorAtMost(q, p);
      }
    }
    EuclidLemma(q, p, s);
    var u := s / q;
    assert s == q * u;
    MulAssoc(p, q, u);
    assert x == y + (p * q) * u;
    ModAddMultiple(y, u, p * q);
  }

  /** No odd number in lo, lo + 2, ... below hi divides n. Evaluated by
      unfolding on literal arguments. */
  predicate NoOddDivisorIn(n: int, lo: nat, hi: nat)
    requires lo > 0
    decreases hi - lo
  {
    lo >= hi || (n % lo != 0 && NoOddDivisorIn(n, lo + 2, hi))
  }

  lemma {:induction false} NoOddDivisorInJoin(n: int, a: nat, b: nat, c: nat)
    requires 0 < a <= b <= c && (b - a) % 2 == 0
    requires NoOddDivisorIn(n, a, b) && NoOddDivisorIn(n, b, c)
    ensures NoOddDivisorIn(n, a, c)
    decreases b - a
  {
    if a < b { NoOddDivisorInJoin(n, a + 2, b, c); }
  }

  lemma {:induction false} NoOddDivisorInAt(n: int, lo: nat, hi: nat, k: nat)
    requires 0 < lo <= k < hi && (k - lo) % 2 == 0 && NoOddDivisorIn(n, lo, hi)
    ensures n % k != 0
    decreases hi - lo
  {
    if lo < k { NoOddDivisorInAt(n, lo + 2, hi, k); }
  }

  lemma MulMonotone(a: nat, b: nat, c: nat)
    requires a <= b
    ensures a * c <= b * c
  {
  }

  /** A number with a proper divisor has one whose square does not exceed it. */
  lemma SmallDivisor(n: nat, k: nat) returns (g: nat)
    requires 2 <= k < n && n % k == 0
    ensures 2 <= g && g * g <= n && n % g == 0
  {
    var h := n / k;
    assert n == k * h;
    if h <= 1 {
      MulMonotone(h, 1, k);
      assert false;
    }
    ModOfMultiple(k, h);
    if k <= h {
      g := k;
      MulMonotone(k, h, k);
    } else {
      g := h;
      MulMonotone(h, k, h);
    }
  }

  /** An odd number has no even divisor. */
  lemma OddHasOddDivisors(n: int, g: nat)
    requires n % 2 == 1 && g > 0 && n % g == 0
    ensures g % 2 == 1
  {
    if g % 2 == 0 {
      var t := n / g;
      assert n == g * t;
      assert n == 2 * ((g / 2) * t);
      ModOfMultiple((g / 2) * t, 2);
    }
  }

  /** No k in 2..n-1 divides an odd n >= 3 with no odd divisor in 3..s, where
      (s+1)^2 > n. */
  lemma TrialDivisionExcludes(n: nat, s: nat, k: nat)
    requires n >= 3 && n % 2 == 1 && (s + 1) * (s + 1) > n
    requires NoOddDivisorIn(n, 3, s + 1)
    requires 2 <= k < n
    ensures n % k != 0
  {
    if n % k == 0 {
      var g := OddSmallDivisor(n, s, k);
      NoOddDivisorInAt(n, 3, s + 1, g);
      assert false;
    }
  }

  /** A divisible odd n has an odd divisor in 3..s when (s+1)^2 > n. */
  lemma OddSmallDivisor(n: nat, s: nat, k: nat) returns (g: nat)
    requires n % 2 == 1 && (s + 1) * (s + 1) > n
    requires 2 <= k < n && n % k == 0
    ensures 3 <= g <= s && (g - 3) % 2 == 0 && n % g == 0
  {
    g := SmallDivisor(n, k);
    assert g <= s by {
      RootBound(n, s, g);
    }
    assert g % 2 == 1 by {
      OddHasOddDivisors(n, g);
    }
  }

  /** A number whose square is at most n is at most s when (s+1)^2 > n. */
  lemma RootBound(n: nat, s: nat, g: nat)
    requires g * g <= n < (s + 1) * (s + 1)
    ensures g <= s
  {
    if g > s {
      MulMonotone(s + 1, g, s + 1);
      MulMonotone(s + 1, g, g);
    }
  }

  /** An odd n >= 3 with no odd divisor in 3..s, where (s+1)^2 > n, is prime. */
  lemma PrimeByTrialDivision(n: nat, s: nat)
    requires n >= 3 && n % 2 == 1 && (s + 1) * (s + 1) > n
    requires NoOddDivisorIn(n, 3, s + 1)
    ensures IsPrime(n)
  {
    forall k | 2 <= k < n
      ensures n % k != 0
    {
      TrialDivisionExcludes(n, s, k);
    }
  }

  lemma Cert65537A() ensures NoOddDivisorIn(65537, 3, 35) {}
  lemma Cert65537B() ensures NoOddDivisorIn(65537, 35, 67) {}
  lemma Cert65537C() ensures NoOddDivisorIn(65537, 67, 99) {}
  lemma Cert65537D() ensures NoOddDivisorIn(65537, 99, 131) {}
  lemma Cert65537E() ensures NoOddDivisorIn(65537, 131, 163) {}
  lemma Cert65537F() ensures NoOddDivisorIn(65537, 163, 195) {}
  lemma Cert65537G() ensures NoOddDivisorIn(65537, 195, 227) {}
  lemma Cert65537H() ensures NoOddDivisorIn(65537, 227, 257) {}

  /** The public exponent 65537 is prime: no odd number up to 256 divides it. */
  lemma PublicExponentIsPrime()
    ensures IsPrime(65537)
  {
    Cert65537A(); Cert65537B(); Cert65537C(); Cert65537D();
    Cert65537E(); Cert65537F(); Cert65537G(); Cert65537H();
    NoOddDivisorInJoin(65537, 3, 35, 67);
    NoOddDivisorInJoin(65537, 3, 67, 99);
    NoOddDivisorInJoin(65537, 3, 99, 131);
    NoOddDivisorInJoin(65537, 3, 131, 163);
    NoOddDivisorInJoin(65537, 3, 163, 195);
    NoOddDivisorInJoin(65537, 3, 195, 227);
    NoOddDivisorInJoin(65537, 3, 227, 257);
    PrimeByTrialDivision(65537, 256);
  }

  /** A prime p shares no factor with a number it does not divide. */
  lemma PrimeNotDividingIsCoprime(p: nat, x: nat)
    requires IsPrime(p) && x % p != 0
    ensures Egcd(p, x).0 == 1
  {
    var g := Egcd(p, x).0;
    assert Divides(g, p);
    assert g > 0;
    DivisorAtMost(g, p);
  }

  /** The converse: a p >= 2 that divides x is a common divisor of p and x,
      so their gcd is not 1. */
  lemma DividingIsNotCoprime(p: nat, x: nat)
    requires p >= 2 && x % p == 0
    ensures Egcd(p, x).0 != 1
  {
    var g := Egcd(p, x).0;
    EgcdIsGcd(p, x);
    assert Divides(p, p) && Divides(p, x);
    assert Divides(p, g);
  }
}

=== FILE: random.dfy ===
/** The random candidate generator `randomBigInt` (rsa_puro.js:2-15) and the
    rejection sampler `randBetween` (rsa_puro.js:51-58).

    `Math.random` is replaced by a finite sequence of byte draws. Each draw
    consumes bytes from the front and hands the remainder back to the caller,
    so every loop that keeps drawing strictly shortens the sequence and
    terminates; when the draws run out the caller gets `None`, which stands for
    "the source did not finish within these draws". */
module Random {
  import opened Arith
  import opened Wrappers

  /** rest is what remains of s after some draws were taken from its front. */
  predicate Suffix(rest: seq<Byte>, s: seq<Byte>)
  {
    |rest| <= |s| && rest == s[|s| - |rest|..]
  }

  lemma SuffixTrans(a: seq<Byte>, b: seq<Byte>, c: seq<Byte>)
    requires Suffix(a, b) && Suffix(b, c)
    ensures Suffix(a, c)
  {
    assert c[|c| - |b|..][|b| - |a|..] == c[|c| - |a|..];
  }

  /** `Math.ceil(bits / 8)`: the number of bytes drawn for a bits-bit candidate. */
  function ByteCount(bits: nat): nat
  {
    (bits + 7) / 8
  }

  /** `n | (1n << k)` for n >= 0: set bit k of n. */
  function SetBit(n: nat, k: nat): nat
  {
    if (n / Pow2(k)) % 2 == 1 then n else n + Pow2(k)
  }

  /** Setting the top bit of a value below 2^(k+1). */
  lemma SetBitHigh(x: nat, k: nat)
    requires x < Pow2(k + 1)
    ensures SetBit(x, k) == Pow2(k) + x % Pow2(k)
  {
    var p := Pow2(k);
    assert Pow2(k + 1) == 2 * p;
    if x < p {
      DivModUnique(x, p, 0, x);
    } else {
      DivModUnique(x, p, 1, x - p);
    }
  }

  /** Setting bit 0 rounds up to the next odd number. */
  lemma SetBitLow(y: nat)
    ensures SetBit(y, 0) == 2 * (y / 2) + 1
  {
    assert Pow2(0) == 1;
  }

  lemma ModOfModDouble(v: nat, p: nat)
    requires p > 0
    ensures (v % (2 * p)) % p == v % p
  {
    var q := v / (2 * p);
    assert v == (2 * p) * q + v % (2 * p);
    assert v == v % (2 * p) + p * (2 * q);
    ModAddMultiple(v % (2 * p), 2 * q, p);
  }

  lemma HalfOfMod(v: nat, q: nat)
    requires q > 0
    ensures (v % (2 * q)) / 2 == (v / 2) % q
  {
    var h, b := v / 2, v % 2;
    var t, u := h / q, h % q;
    assert v == 2 * h + b && h == q * t + u;
    assert v == (2 * q) * t + (2 * u + b);
    DivModUnique(v, 2 * q, t, 2 * u + b);
    DivModUnique(2 * u + b, 2, u, b);
  }

  /** The value randomBigInt builds from the drawn value v: the top bit set,
      the low bit set, and the bits in between taken from v. */
  function Candidate(bits: nat, v: nat): nat
  {
    if bits <= 1 then 1 else Pow2(bits - 1) + 2 * ((v / 2) % Pow2(bits - 2)) + 1
  }

  /** Every candidate is odd and has exactly bits bits. */
  lemma CandidateRange(bits: nat, v: nat)
    ensures Candidate(bits, v) % 2 == 1
    ensures bits >= 1 ==> Pow2(bits - 1) <= Candidate(bits, v) < Pow2(bits)
  {
    if bits == 1 {
      assert Pow2(1) == 2;
    } else if bits >= 2 {
      var q := Pow2(bits - 2);
      assert Pow2(bits - 1) == 2 * q && Pow2(bits) == 4 * q;
      var h := (v / 2) % q;
      assert Candidate(bits, v) == 2 * (q + h) + 1;
    }
  }

  /** Masking v to bits bits and then setting the top and the low bit gives
      the candidate. */
  lemma CandidateBits(v: nat, bits: nat)
    requires bits >= 1
    ensures SetBit(SetBit(v % Pow2(bits), bits - 1), 0) == Candidate(bits, v)
  {
    SetTopAndLow(v, bits);
    if bits == 1 {
      assert Pow2(0) == 1;
    } else {
      LowBitsHalved(v, bits);
    }
  }

  lemma SetTopAndLow(v: nat, bits: nat)
    requires bits >= 1
    ensures SetBit(SetBit(v % Pow2(bits), bits - 1), 0) ==
      2 * ((Pow2(bits - 1) + v % Pow2(bits - 1)) / 2) + 1
  {
    var p := Pow2(bits - 1);
    assert Pow2(bits) == 2 * p;
    var x := v % (2 * p);
    var y := p + v % p;
    assert SetBit(x, bits - 1) == y by {
      SetBitHigh(x, bits - 1);
      ModOfModDouble(v, p);
    }
    SetBitLow(y);
  }

  lemma LowBitsHalved(v: nat, bits: nat)
    requires bits >= 2
    ensures 2 * ((Pow2(bits - 1) + v % Pow2(bits - 1)) / 2) + 1 == Candidate(bits, v)
  {
    var q := Pow2(bits - 2);
    var p := Pow2(bits - 1);
    assert p == 2 * q;
    var r := v % (2 * q);
    var y := 2 * q + r;
    assert y == 2 * (q + r / 2) + r % 2;
    DivModUnique(y, 2, q + r / 2, r % 2);
    HalfOfMod(v, q);
    assert Candidate(bits, v) == p + 2 * ((v / 2) % q) + 1;
  }

  /** The post-processing of randomBigInt on the drawn value v of
      ByteCount(bits) bytes: mask when the bytes hold more than bits bits, set
      the top bit (a no-op for bits == 0, where the shift by -1 gives 0), set
      the low bit. */
  lemma FinishCandidate(v: nat, bits: nat)
    requires v < Pow2(8 * ByteCount(bits))
    ensures var masked := if ByteCount(bits) * 8 - bits > 0 then v % Pow2(bits) else v;
            var top := if bits >= 1 then SetBit(masked, bits - 1) else masked;
            SetBit(top, 0) == Candidate(bits, v)
  {
    if ByteCount(bits) * 8 - bits <= 0 {
      assert 8 * ByteCount(bits) == bits;
      ModSmall(v, Pow2(bits));
    }
    if bits >= 1 {
      CandidateBits(v, bits);
    } else {
      assert v == 0;
      assert Pow2(0) == 1;
    }
  }

  /** randomBigInt: draw Math.ceil(bits/8) bytes big-endian, mask to bits bits
      when the bytes hold more, then force the top bit and the low bit. For
      bits == 0 nothing is drawn and the result is 1. */
  method RandomBigInt(bits: nat, rand: seq<Byte>) returns (n: nat, rest: seq<Byte>)
    requires |rand| >= ByteCount(bits)
    ensures rest == rand[ByteCount(bits)..]
    ensures n == Candidate(bits, BytesValue(rand[..ByteCount(bits)]))
    ensures n % 2 == 1 && (bits >= 1 ==> Pow2(bits - 1) <= n < Pow2(bits))
  {
    var bytes := ByteCount(bits);
    n := 0;
    var i := 0;
    while i < bytes
      invariant 0 <= i <= bytes
      invariant n == BytesValue(rand[..i])
    {
      assert rand[..i + 1][..i] == rand[..i];
      n := n * 256 + rand[i];  // (n << 8n) | BigInt(byte), with byte < 256
      i := i + 1;
    }
    ghost var v := n;
    BytesValueBound(rand[..bytes]);
    FinishCandidate(v, bits);
    var excess := bytes * 8 - bits;
    if excess > 0 {
      n := n % Pow2(bits);
    }
    if bits >= 1 {
      n := SetBit(n, bits - 1);
    }
    n := SetBit(n, 0);
    rest := rand[bytes..];
    CandidateRange(bits, v);
  }

  /** `x.toString(2).length`: the number of binary digits, counting the minus
      sign of a negative x; zero is written "0". */
  function BinaryLength(x: int): (len: nat)
    ensures len >= 1
    ensures 0 <= x < 2 ==> len == 1
    ensures x < 0 ==> len >= 2
    decreases if x < 0 then 1 - x else x
  {
    if x < 0 then 1 + BinaryLength(-x)
    else if x < 2 then 1
    else 1 + BinaryLength(x / 2)
  }

  /** A positive number has exactly BinaryLength(x) significant bits. */
  lemma {:induction false} BinaryLengthBounds(x: nat)
    requires x >= 1
    ensures Pow2(BinaryLength(x) - 1) <= x < Pow2(BinaryLength(x))
    decreases x
  {
    if x >= 2 {
      BinaryLengthBounds(x / 2);
      assert BinaryLength(x) == 1 + BinaryLength(x / 2);
    }
  }

  /** The do-while loop of randBetween: draw candidates of the bit length of
      range until one is at most range. */
  method DrawAtMost(range: int, rand: seq<Byte>) returns (rnd: Option<nat>, rest: seq<Byte>)
    ensures Suffix(rest, rand)
    ensures rnd.Some? ==> rnd.value <= range && rnd.value % 2 == 1
    ensures rnd.Some? ==> rnd.value >= Pow2(BinaryLength(range) - 1)
    ensures rnd.None? ==> |rest| < ByteCount(BinaryLength(range))
    ensures range >= 2 && range == Pow2(BinaryLength(range) - 1) ==> rnd.None?
  {
    var bits := BinaryLength(range);
    rest := rand;
    while true
      invariant Suffix(rest, rand)
      decreases |rest|
    {
      if |rest| < ByteCount(bits) {
        return None, rest;
      }
      var n;
      ghost var before := rest;
      n, rest := RandomBigInt(bits, rest);
      SuffixTrans(rest, before, rand);
      PowerOfTwoRange(range, n);
      if n <= range {
        return Some(n), rest;
      }
    }
  }

  /** A range that is a power of two, 2 or more, has candidates of its own
      bit length that are all odd and at least the range: none fits. */
  lemma PowerOfTwoRange(range: int, n: nat)
    requires n % 2 == 1 && n >= Pow2(BinaryLength(range) - 1)
    ensures range >= 2 && range == Pow2(BinaryLength(range) - 1) ==> n > range
  {
    if range >= 2 && range == Pow2(BinaryLength(range) - 1) {
      var k := BinaryLength(range) - 1;
      assert k >= 1;
      assert Pow2(k) == 2 * Pow2(k - 1);
    }
  }

  /** randBetween: a candidate at most max - min, added to min. Candidates come
      from randomBigInt, so the offset from min is odd with its top bit set: the
      result is not uniform on [min, max]. When max - min < 1 no candidate is
      ever accepted, and neither is one when max - min is a power of two 2 or
      more, since every candidate of its length is odd and at least that
      power: the source loops forever; here the draws run out and the result
      is None. */
  method RandBetween(min: int, max: int, rand: seq<Byte>) returns (r: Option<int>, rest: seq<Byte>)
    ensures Suffix(rest, rand)
    ensures r.Some? ==> min <= r.value <= max
    ensures r.Some? ==> (r.value - min) % 2 == 1
    ensures r.Some? ==> r.value - min >= Pow2(BinaryLength(max - min) - 1)
    ensures max - min < 1 ==> r.None?
    ensures max - min >= 2 && max - min == Pow2(BinaryLength(max - min) - 1) ==> r.None?
    ensures r.None? ==> |rest| < ByteCount(BinaryLength(max - min))
  {
    var rnd;
    rnd, rest := DrawAtMost(max - min, rand);
    if rnd.None? {
      return None, rest;
    }
    r := Some(min + rnd.value);
  }
}

=== FILE: rsa.dfy ===
/** The public API of rsa_puro.js: key generation `generate_keypair`
    (rsa_puro.js:83-94), `encrypt` and `decrypt` (rsa_puro.js:104-105) and the
    unhashed signature scheme `sign` and `verify` (rsa_puro.js:109-111).

    Every place where the source throws becomes None: a text that is empty
    (`BigInt('0x')`), a hex string that is empty or not hex, and a modulus of 0
    (`base %= 0n` inside modPow, or `% 0n` in sign and verify). */
module Rsa {
  import opened Arith
  import opened Wrappers
  import opened Euclid
  import opened Primes
  import opened Fermat
  import opened ModExp
  import opened Random
  import opened Primality
  import opened Codec

  datatype PublicKey = PublicKey(e: nat, n: nat)
  datatype PrivateKey = PrivateKey(d: nat, n: nat)
  datatype KeyPair = KeyPair(pub: PublicKey, priv: PrivateKey)

  /** The public exponent `e = 65537n`. */
  const PublicExponent: nat := 65537

  /** The tail of generate_keypair once p and q are drawn: n = p*q and d the
      inverse of e modulo phi = (p-1)(q-1). Because e is prime and does not
      divide phi, `modInv` cannot throw here. */
  function KeyFromPrimes(p: nat, q: nat): (kp: KeyPair)
    requires p >= 2 && q >= 2 && ((p - 1) * (q - 1)) % PublicExponent != 0
    ensures kp.pub == PublicKey(PublicExponent, p * q) && kp.priv.n == p * q
    ensures kp.priv.d < (p - 1) * (q - 1)
    ensures (PublicExponent * kp.priv.d) % ((p - 1) * (q - 1)) == 1 % ((p - 1) * (q - 1))
  {
    var phi: nat := (p - 1) * (q - 1);
    PublicExponentIsPrime();
    PrimeNotDividingIsCoprime(PublicExponent, phi);
    var d := ModInv(PublicExponent, phi);
    KeyPair(PublicKey(PublicExponent, p * q), PrivateKey(d.value, p * q))
  }

  /** n passed isProbablePrime(n) with some witnesses. */
  ghost predicate ProbablePrime(n: int)
  {
    exists ws: seq<nat> :: Accepted(n, ws, 8)
  }

  /** p is what generatePrime(half) can return. */
  ghost predicate PrimeOfBits(half: nat, p: nat)
  {
    half >= 1 && Pow2(half - 1) <= p < Pow2(half) && p % 2 == 1 && p >= 3 && ProbablePrime(p)
  }

  /** One call generatePrime(half), with what its result is to the caller. */
  method DrawPrime(half: nat, rand: seq<Byte>) returns (p: Option<nat>, rest: seq<Byte>)
    ensures Suffix(rest, rand)
    ensures p.Some? ==> |rest| < |rand| && PrimeOfBits(half, p.value)
    ensures p.None? ==> half == 0 || |rest| < ByteCount(half)
    ensures half == 2 && |rand| >= 1 ==> p == Some(3) && |rest| == |rand| - 1
  {
    if half == 2 && |rand| >= 1 {
      TwoBitCandidates(rand);
    }
    var witnesses;
    p, witnesses, rest := GeneratePrime(half, rand);
    if p.Some? {
      PrefilterExact(p.value);
    }
  }

  /** The draws of one pass of the do-while loop: p, then q. */
  method DrawPrimes(half: nat, rand: seq<Byte>) returns (found: bool, p: nat, q: nat, rest: seq<Byte>)
    ensures Suffix(rest, rand)
    ensures found ==> |rest| < |rand| && PrimeOfBits(half, p) && PrimeOfBits(half, q)
    ensures !found ==> half == 0 || |rest| < ByteCount(half)
    ensures half == 2 && |rand| >= 2 ==> found && p == 3 && q == 3
  {
    var first, afterP := DrawPrime(half, rand);
    if first.None? {
      return false, 0, 0, afterP;
    }
    var second, afterQ := DrawPrime(half, afterP);
    SuffixTrans(afterQ, afterP, rand);
    if second.None? {
      return false, 0, 0, afterQ;
    }
    return true, first.value, second.value, afterQ;
  }

  /** generatePrime(2) takes 3 from its first draw: every 2-bit candidate is
      3, which the table of small primes settles. */
  lemma TwoBitCandidates(rand: seq<Byte>)
    requires |rand| >= 1
    ensures FirstIsSmallPrime(2, rand) && FirstCandidate(2, rand) == 3
  {
    assert ByteCount(2) == 1;
    assert Pow2(1) == 2 && Pow2(0) == 1;
    assert FirstCandidate(2, rand) == 3;
    assert Prefilter(3) == Some(true);
  }

  /** 3 is the only prime of 2 bits, and a pair of them passes the exit test. */
  lemma TwoBitPrimes(p: nat, q: nat)
    requires PrimeOfBits(2, p) && PrimeOfBits(2, q)
    ensures p == 3 && q == 3 && ((p - 1) * (q - 1)) % PublicExponent == 4
  {
    assert Pow2(1) == 2 && Pow2(2) == 4;
  }

  /** 65537 is prime, so the exit test `phi % e != 0` of generate_keypair is
      exactly `gcd(e, phi) == 1`. */
  lemma ExitTestIsCoprimality(phi: nat)
    ensures phi % PublicExponent != 0 <==> Egcd(PublicExponent, phi).0 == 1
  {
    if phi % PublicExponent != 0 {
      PublicExponentIsPrime();
      PrimeNotDividingIsCoprime(PublicExponent, phi);
    } else {
      DividingIsNotCoprime(PublicExponent, phi);
    }
  }

  /** Two numbers of exactly half bits each multiply to a number of 2*half - 1
      or 2*half bits. */
  lemma ModulusBits(half: nat, p: nat, q: nat)
    requires half >= 1
    requires Pow2(half - 1) <= p < Pow2(half) && Pow2(half - 1) <= q < Pow2(half)
    ensures Pow2(2 * half - 2) <= p * q < Pow2(2 * half)
  {
    Pow2Add(half - 1, half - 1);
    Pow2Add(half, half);
    assert (half - 1) + (half - 1) == 2 * half - 2;
    ProductBounds(p, q, Pow2(half - 1), Pow2(half));
  }

  /** The modulus bound for a key drawn with bits/2-bit primes. */
  lemma KeyModulusBits(bits: nat, p: nat, q: nat)
    requires bits % 2 == 0 && PrimeOfBits(bits / 2, p) && PrimeOfBits(bits / 2, q)
    ensures bits >= 2 && Pow2(bits - 2) <= p * q < Pow2(bits)
  {
    ModulusBits(bits / 2, p, q);
    assert 2 * (bits / 2) == bits;
  }

  lemma ProductBounds(a: nat, b: nat, lo: nat, hi: nat)
    requires lo <= a < hi && lo <= b < hi
    ensures lo * lo <= a * b < hi * hi
  {
    MulMonotone(lo, a, lo);
    MulMonotone(lo, b, a);
    assert a * lo == lo * a;
    assert b * a == a * b;
    MulMonotone(a, hi, b);
    MulMonotone(b, hi, hi);
    assert hi * b == b * hi;
    assert a * b <= b * hi;
    assert b * hi < hi * hi by {
      MulMonotone(b + 1, hi, hi);
    }
  }

  /** generate_keypair(bits = 512): draw p and q of bits/2 bits until e does not
      divide phi, then build the key. An odd bits makes bits/2 fractional and
      `BigInt(bits / 2)` throws inside randomBigInt: None. p and q are not
      required to differ. */
  method GenerateKeyPair(bits: nat := 512, rand: seq<Byte>)
    returns (kp: Option<KeyPair>, p: nat, q: nat, rest: seq<Byte>)
    ensures Suffix(rest, rand)
    ensures bits % 2 == 1 ==> kp.None?
    ensures kp.Some? ==> PrimeOfBits(bits / 2, p) && PrimeOfBits(bits / 2, q)
    ensures kp.Some? ==> ((p - 1) * (q - 1)) % PublicExponent != 0 && kp.value == KeyFromPrimes(p, q)
    ensures kp.Some? ==> bits >= 2 && Pow2(bits - 2) <= kp.value.pub.n < Pow2(bits)
    ensures kp.Some? && bits == 4 ==> p == 3 && q == 3
    ensures bits == 4 && |rand| >= 2 ==> kp.Some?
    ensures kp.None? ==> bits % 2 == 1 || bits == 0 || |rest| < ByteCount(bits / 2)
  {
    rest := rand;
    p, q := 0, 0;
    if bits % 2 == 1 {
      return None, p, q, rest;
    }
    var half := bits / 2;
    while true
      invariant Suffix(rest, rand)
      invariant bits == 4 && |rand| >= 2 ==> |rest| == |rand|
      decreases |rest|
    {
      var found, p', q', rest' := DrawPrimes(half, rest);
      SuffixTrans(rest', rest, rand);
      rest := rest';
      if !found {
        return None, 0, 0, rest;
      }
      p, q := p', q';
      if half == 2 {
        TwoBitPrimes(p, q);
      }
      if ((p - 1) * (q - 1)) % PublicExponent != 0 {
        KeyModulusBits(bits, p, q);
        return Some(KeyFromPrimes(p, q)), p, q, rest;
      }
    }
  }

  /** generate_keypair with the missing check that p and q differ: the loop
      also repeats while p == q. */
  method GenerateKeyPairDistinct(bits: nat := 512, rand: seq<Byte>)
    returns (kp: Option<KeyPair>, p: nat, q: nat, rest: seq<Byte>)
    ensures Suffix(rest, rand)
    ensures bits % 2 == 1 ==> kp.None?
    ensures kp.Some? ==> PrimeOfBits(bits / 2, p) && PrimeOfBits(bits / 2, q) && p != q
    ensures kp.Some? ==> ((p - 1) * (q - 1)) % PublicExponent != 0 && kp.value == KeyFromPrimes(p, q)
    ensures kp.Some? ==> bits >= 2 && Pow2(bits - 2) <= kp.value.pub.n < Pow2(bits)
    ensures bits == 4 ==> kp.None?
    ensures kp.None? ==> bits % 2 == 1 || bits == 0 || |rest| < ByteCount(bits / 2)
  {
    rest := rand;
    p, q := 0, 0;
    if bits % 2 == 1 {
      return None, p, q, rest;
    }
    var half := bits / 2;
    while true
      invariant Suffix(rest, rand)
      decreases |rest|
    {
      var found, p', q', rest' := DrawPrimes(half, rest);
      SuffixTrans(rest', rest, rand);
      rest := rest';
      if !found {
        return None, 0, 0, rest;
      }
      p, q := p', q';
      if half == 2 {
        TwoBitPrimes(p, q);
      }
      if ((p - 1) * (q - 1)) % PublicExponent != 0 && p != q {
        KeyModulusBits(bits, p, q);
        return Some(KeyFromPrimes(p, q)), p, q, rest;
      }
    }
  }

  /** encrypt: the text as a number, raised to e modulo n, written in hex. */
  function Encrypt(txt: seq<Byte>, pub: PublicKey): (c: Option<string>)
    ensures c.Some? <==> txt != [] && pub.n > 0
    ensures c.Some? ==> ParseHex(c.value) == Some(ModPowSpec(BytesValue(txt), pub.e, pub.n))
  {
    match TextToBig(txt)
    case None => None
    case Some(m) =>
      if pub.n == 0 then None
      else
        var c := ModPowSpec(m, pub.e, pub.n);
        ParseToHex(c);
        Some(ToHex(c))
  }

  /** decrypt: the hex ciphertext as a number, raised to d modulo n, turned
      back into a text. */
  function Decrypt(hex: string, priv: PrivateKey): (txt: Option<seq<Byte>>)
    ensures txt.Some? <==> ParseHex(hex).Some? && priv.n > 0
    ensures txt.Some? ==> TextToBig(txt.value) == Some(ModPowSpec(ParseHex(hex).value, priv.d, priv.n))
  {
    match ParseHex(hex)
    case None => None
    case Some(c) =>
      if priv.n == 0 then None
      else
        var m := ModPowSpec(c, priv.d, priv.n);
        TextToBigOfText(m);
        Some(BigToText(m))
  }

  /** sign: the text as a number reduced modulo n, raised to d modulo n,
      written in hex. There is no hashing. */
  function Sign(txt: seq<Byte>, priv: PrivateKey): (sig: Option<string>)
    ensures sig.Some? <==> txt != [] && priv.n > 0
    ensures sig.Some? ==>
      ParseHex(sig.value) == Some(ModPowSpec(BytesValue(txt) % priv.n, priv.d, priv.n))
  {
    match TextToBig(txt)
    case None => None
    case Some(m) =>
      if priv.n == 0 then None
      else
        var s := ModPowSpec(m % priv.n, priv.d, priv.n);
        ParseToHex(s);
        Some(ToHex(s))
  }

  /** verify: the text as a number modulo n equals the signature raised to e
      modulo n. */
  function Verify(txt: seq<Byte>, sig: string, pub: PublicKey): (ok: Option<bool>)
    ensures ok.Some? <==> txt != [] && pub.n > 0 && ParseHex(sig).Some?
    ensures ok.Some? ==>
      (ok.value <==> BytesValue(txt) % pub.n == ModPowSpec(ParseHex(sig).value, pub.e, pub.n))
  {
    match TextToBig(txt)
    case None => None
    case Some(m) =>
      if pub.n == 0 then None
      else
        match ParseHex(sig)
        case None => None
        case Some(s) => Some(m % pub.n == ModPowSpec(s, pub.e, pub.n))
  }

  // ---------------------------------------------------------------------
  // Correctness of RSA

  /** A key pair built from two distinct primes with e*d == 1 modulo phi. */
  ghost predicate ValidKeyPair(kp: KeyPair, p: nat, q: nat)
  {
    IsPrime(p) && IsPrime(q) && p != q &&
    kp.pub.n == p * q && kp.priv.n == p * q &&
    (kp.pub.e * kp.priv.d) % ((p - 1) * (q - 1)) == 1
  }

  /** m^(t(p-1)) == 1 modulo a prime p that does not divide m. */
  lemma PowerOfOrderMultiple(p: nat, m: nat, t: nat)
    requires IsPrime(p) && m % p != 0
    ensures Pow(m, (p - 1) * t) % p == 1
  {
    var f := Pow(m, p - 1);
    assert f % p == 1 by {
      FermatLittle(p, m);
    }
    assert Pow(f % p, t) == 1 by {
      PowOfOne(t);
    }
    PowMod(f, t, p);
    assert Pow(f, t) % p == 1 % p;
    ModSmall(1, p);
    PowMul(m, p - 1, t);
  }

  /** m^(1 + t(p-1)) == m modulo a prime p, for every m. */
  lemma PowCongruentModPrime(p: nat, m: nat, t: nat)
    requires IsPrime(p)
    ensures Pow(m, 1 + t * (p - 1)) % p == m % p
  {
    var k: nat := (p - 1) * t;
    assert t * (p - 1) == k;
    var w := Pow(m, k);
    assert Pow(m, 1 + k) == m * w by {
      PowAdd(m, 1, k);
      assert Pow(m, 1) == m;
    }
    if m % p == 0 {
      MulDivisible(m, w, p);
    } else {
      PowerOfOrderMultiple(p, m, t);
      MulMod(m, w, p);
      assert (m % p) * (w % p) == m % p;
      ModMod(m, p);
    }
  }

  /** A number that is 1 modulo phi is 1 plus a multiple of phi. */
  lemma QuotientOfOne(ed: nat, phi: int) returns (k: nat)
    requires phi > 0 && ed % phi == 1
    ensures ed == 1 + phi * k
  {
    k := ed / phi;
  }

  /** m^(1 + (p-1)rk) == m modulo a prime p. */
  lemma PowModPrimeFactor(p: nat, r: nat, k: nat, m: nat, ed: nat)
    requires IsPrime(p) && ed == 1 + ((p - 1) * r) * k
    ensures Pow(m, ed) % p == m % p
  {
    var t := k * r;
    assert ((p - 1) * r) * k == t * (p - 1) by {
      MulAssoc(p - 1, r, k);
      MulAssoc(k, r, p - 1);
    }
    PowCongruentModPrime(p, m, t);
  }

  /** Raising to e*d is the identity on residues modulo n = p*q. */
  lemma RsaIdentity(p: nat, q: nat, e: nat, d: nat, m: nat)
    requires IsPrime(p) && IsPrime(q) && p != q
    requires (e * d) % ((p - 1) * (q - 1)) == 1
    requires m < p * q
    ensures Pow(m, e * d) % (p * q) == m
  {
    var ed := e * d;
    var phi := (p - 1) * (q - 1);
    assert phi > 0 by {
      MulMonotone(1, p - 1, q - 1);
    }
    var k := QuotientOfOne(ed, phi);
    var x := Pow(m, ed);
    assert x % p == m % p by {
      PowModPrimeFactor(p, q - 1, k, m, ed);
    }
    assert x % q == m % q by {
      assert phi == (q - 1) * (p - 1);
      PowModPrimeFactor(q, p - 1, k, m, ed);
    }
    CongruentModProduct(p, q, x, m);
    ModSmall(m, p * q);
  }

  /** Exponentiating by e and then by d modulo n = p*q gives back every
      residue. */
  lemma RsaRoundTrip(p: nat, q: nat, e: nat, d: nat, m: nat)
    requires IsPrime(p) && IsPrime(q) && p != q
    requires (e * d) % ((p - 1) * (q - 1)) == 1
    requires m < p * q
    ensures ModPowSpec(ModPowSpec(m, e, p * q), d, p * q) == m
  {
    var n := p * q;
    assert e != 0 && d != 0;
    assert n > 0;
    ModPowCompose(m, e, d, n);
    RsaIdentity(p, q, e, d, m);
  }

  /** decrypt undoes encrypt for a canonical text below n. */
  lemma DecryptEncrypt(kp: KeyPair, p: nat, q: nat, txt: seq<Byte>)
    requires ValidKeyPair(kp, p, q) && Canonical(txt) && BytesValue(txt) < kp.pub.n
    ensures Encrypt(txt, kp.pub).Some?
    ensures Decrypt(Encrypt(txt, kp.pub).value, kp.priv) == Some(txt)
  {
    var n, e, d := p * q, kp.pub.e, kp.priv.d;
    var m := BytesValue(txt);
    var c := ModPowSpec(m, e, n);
    assert ParseHex(Encrypt(txt, kp.pub).value) == Some(c);
    RsaRoundTrip(p, q, e, d, m);
    assert Decrypt(Encrypt(txt, kp.pub).value, kp.priv) == Some(BigToText(m));
    BigToTextOfValue(txt);
  }

  /** verify accepts what sign produced, for every non-empty text. */
  lemma VerifySign(kp: KeyPair, p: nat, q: nat, txt: seq<Byte>)
    requires ValidKeyPair(kp, p, q) && txt != []
    ensures Sign(txt, kp.priv).Some?
    ensures Verify(txt, Sign(txt, kp.priv).value, kp.pub) == Some(true)
  {
    var n, e, d := p * q, kp.pub.e, kp.priv.d;
    var m := BytesValue(txt) % n;
    assert d * e == e * d;
    RsaRoundTrip(p, q, d, e, m);
  }

  /** phi(p*q) >= 2 for two distinct numbers p, q >= 2. */
  lemma PhiAtLeastTwo(p: nat, q: nat)
    requires p >= 2 && q >= 2 && p != q
    ensures (p - 1) * (q - 1) >= 2
  {
    if p < q {
      MulMonotone(1, p - 1, q - 1);
    } else {
      MulMonotone(1, q - 1, p - 1);
    }
  }

  /** A key generate_keypair builds from two distinct primes decrypts what it
      encrypts. */
  lemma DistinctPrimeKeyDecrypts(p: nat, q: nat, txt: seq<Byte>)
    requires IsPrime(p) && IsPrime(q) && p != q && ((p - 1) * (q - 1)) % PublicExponent != 0
    requires Canonical(txt) && BytesValue(txt) < p * q
    ensures Encrypt(txt, KeyFromPrimes(p, q).pub).Some?
    ensures Decrypt(Encrypt(txt, KeyFromPrimes(p, q).pub).value, KeyFromPrimes(p, q).priv) == Some(txt)
  {
    var kp := KeyFromPrimes(p, q);
    assert ValidKeyPair(kp, p, q) by {
      PhiAtLeastTwo(p, q);
      ModSmall(1, (p - 1) * (q - 1));
    }
    DecryptEncrypt(kp, p, q, txt);
  }

  // ---------------------------------------------------------------------
  // p == q

  /** With bits == 4 both primes are 3 and generate_keypair builds this key. */
  lemma FourBitKey()
    ensures ((3 - 1) * (3 - 1)) % PublicExponent != 0
    ensures KeyFromPrimes(3, 3) == KeyPair(PublicKey(65537, 9), PrivateKey(1, 9))
  {
    var kp := KeyFromPrimes(3, 3);
    assert (65537 * kp.priv.d) % 4 == 1 && kp.priv.d < 4;
  }

  /** 2^(6k+5) == 5 modulo 9, since 2^6 == 1 modulo 9. */
  lemma PowerOfTwoModNine(k: nat)
    ensures Pow(2, 6 * k + 5) % 9 == 5
  {
    var a := Pow(2, 6 * k);
    PowAdd(2, 6 * k, 5);
    PowMul(2, 6, k);
    assert Pow(2, 6) == 64 && Pow(2, 5) == 32;
    PowMod(64, k, 9);
    PowOfOne(k);
    MulMod(a, 32, 9);
  }

  /** The key from p == q == 3 does not decrypt what it encrypts: the text [2]
      comes back as [5]. */
  lemma EqualPrimeKeyFails()
    ensures Encrypt([2], PublicKey(65537, 9)) == Some(['5'])
    ensures Decrypt(['5'], PrivateKey(1, 9)) == Some([5])
  {
    assert BytesValue([2]) == 2 by {
      assert [2][..0] == [];
    }
    PowerOfTwoModNine(10922);
    assert ToHex(5) == ['5'];
    assert ParseHex(['5']) == Some(5);
    assert Pow(5, 1) == 5;
    assert EvenHex(5) == ['0', '5'];
    assert HexToBytes(['0', '5']) == [5] by {
      assert ['0', '5'][2..] == [];
    }
    assert BigToText(5) == [5];
  }
}

=== FILE: wrappers.dfy ===
/** The optional value used wherever the library throws or a draw runs short. */
module Wrappers {

  datatype Option<+T> = None | Some(value: T)
}
